=== FILE: README.md ===
# Shiksha-Setu student backend: a Dafny model

This project models the rule-bearing core of the Shiksha-Setu college
backend, an Express/Mongoose service. Teachers use it to record marks,
attendance, warnings and mentors. Students use it to submit assignments and to
read their attendance history. The database is replaced by values: a stored
document that a handler loads is a parameter (`None` when no document
matches), and a collection is a sequence or a map. Every handler becomes a pure
function whose `Result` carries the HTTP outcome (`BadRequest` 400, `Forbidden`
403, `NotFound` 404, `ServerError` 500).

The modules follow the program's files:

- `Grades` covers the fixed grade-to-points table and the grade enum.
- `StudentModel` covers the student document, its schema constraints and its
  defaults.
- `Marks` covers the semester result upload. It maps grades to points, folds
  them into credits, backlogs and SGPA, then replaces the record for that
  semester.
- `AttendanceModel` covers the attendance record: its midnight date, the
  trimmed and upper-cased subject code, and the unique index on
  (student, date, subjectCode) as the schema declares it (see "## Left out"
  for whether the server builds it).
- `AttendanceUpload` covers the all-or-nothing attendance batch: validate every
  entry, group increments per student, write one audit record per entry.
- `AttendanceHistory` covers a student's day-by-day and month-by-month history.
- `TeacherModel` covers the teacher document and the "teaches this student",
  "teaches this subject" and Admin/HOD override predicates.
- `StudentRoutes` covers the warning / at-risk override, the raw counter patch,
  the paginated listing and the class roster.
- `TeacherRoutes` covers the teacher dashboard, the "my students" listing,
  student details and mentor assignment.
- `Assignments` covers creating an assignment, submitting and resubmitting,
  grading, and the submission statistics.
- `Paging` covers `page`/`limit` reading, skip/limit windows and
  `Math.ceil(total / limit)`.
- `Numerals` covers base-ten `parseInt` and `Number`.
- `Text` covers `trim`, `toUpperCase` and `toLowerCase` on ASCII, and
  `split`/`join`.
- `Wrappers` covers `Option`, `Result` and JavaScript truthiness of optional
  text.

Two behaviours of the upload handler are worth stating explicitly:

- **Missing grade on upload.** The handler gives a subject without a grade
  0 points (`routes/marks.js:117-118`). But the schema requires `grade` and
  restricts it to the enum (`models/Student.js:63-67`), so `save()` rejects
  the document and the handler answers 500. `Marks.Upload` models that 500.
- **Credits.** The handler only checks `typeof credits === 'number'`, so
  `Marks.WellFormed` accepts any integer, negative ones included. The SGPA
  bounds are proved for non-negative credits.

## Model

| member | source | states |
|---|---|---|
| Grades.Parse | models/Student.js:63-67 | exactly the eight enum spellings read as grades; any other text is not a grade |
| Grades.Points | models/Student.js:4-13 | every grade is worth 0 to 10 points, and a grade is worth 0 exactly when it is F or Ab |
| Grades.NameRoundTrip | models/Student.js:4-13 | each grade's spelling reads back as that grade, and no two grades share a spelling |
| Grades.PointsTable | models/Student.js:4-13 | through their spellings, O=10, A+=9, A=8, B+=7, B=6, C=5, F=0, Ab=0 |
| Grades.PointsStrictlyDecreasing | models/Student.js:4-13 | along O, A+, A, B+, B, C the points strictly decrease |
| Grades.LookupPoints | routes/marks.js:117-118 | a known grade gets its table points; an absent, empty or unknown grade gets 0; positive points only for a known non-backlog grade |
| Grades.BacklogNameIff | routes/marks.js:133 | `['F','Ab'].includes(grade)` holds exactly when the grade parses to a backlog grade |
| StudentModel.NewStudent | models/Student.js:33-103 | a new student keeps its identity fields (name trimmed, email lower-cased); every counter, cgpa, backlog and riskScore is 0, riskLevel is Low, flags are false, there are no warnings or results; the document is storable and attended ≤ total |
| Marks.Process | routes/marks.js:117-127 | a stored subject keeps name, code, credits and numeric marks; its points are the table lookup of its grade, within 0..10; a falsy grade is stored as absent |
| Marks.ProcessAll | routes/marks.js:109-127 | one processed subject per input subject, in input order |
| Marks.Backlogs | routes/marks.js:133 | the backlog count never exceeds the number of subjects |
| Marks.EarnedWithinTotal | routes/marks.js:129-132 | with non-negative credits, 0 ≤ earnedCredits ≤ totalCredits |
| Marks.WeightedWithinBounds | routes/marks.js:129-130 | with non-negative credits and points in 0..10, total points lie between 0 and 10 × total credits |
| Marks.SgpaInRange | routes/marks.js:136 | with non-negative credits the SGPA lies in [0, 10], so the schema's sgpa bounds never reject it |
| Marks.WithoutSemester | routes/marks.js:139-141 | the filter keeps exactly the records of other semesters |
| Marks.WithoutPresentSemester | routes/marks.js:139-141 | with unique semesters, filtering one record's semester removes that record only and keeps the others in order |
| Marks.ReplaceSemester | routes/marks.js:139-151 | the new record comes last; no other record has its semester; records of other semesters are kept; unique semesters stay unique |
| Marks.ReuploadReplaces | routes/marks.js:139-151 | uploading a semester twice equals uploading only the second time |
| Marks.ReplaceExisting | routes/marks.js:139-151 | re-uploading an existing semester removes just that record, keeps the rest in order, and appends the new one |
| Marks.ReplaceAbsent | routes/marks.js:139-151 | uploading a new semester appends its record and changes nothing else |
| Marks.Upload | routes/marks.js:89-173 | 400 for a missing roll number, semester or subject array; 404 for an unknown student; 400 for any malformed subject, before anything changes; for a well-formed request, success exactly when the updated results pass the schema, and 500 otherwise; on success only `academics` changes, and it holds exactly one record for the semester, last; its subjects are the processed inputs in input order, and its SGPA, total credits, earned credits and backlogs are the folds over those subjects, as the reply reports |
| Marks.CleanUploadSucceeds | routes/marks.js:89-173 | an upload with non-negative credits, known grades and marks in 0..100 always succeeds |
| Marks.AccumulateSubjects | routes/marks.js:103-134 | the loop fails exactly when some subject is malformed; otherwise its four running sums equal the credit, points, earned-credit and backlog folds |
| AttendanceModel.ParseStatus | models/Attendance.js:17-21 | exactly "present", "absent" and "late" are statuses |
| AttendanceModel.Midnight | models/Attendance.js:62-67 | the normalised date is a day boundary at most a day before the given instant |
| AttendanceModel.MidnightUnique | models/Attendance.js:62-67 | that day boundary is the only one with this property |
| AttendanceModel.MidnightIdempotent | models/Attendance.js:62-67 | normalising an already normalised date changes nothing |
| AttendanceModel.Stored | models/Attendance.js:22-30 | storing keeps student, date, status and creator, and keeps a code present exactly when it was given |
| AttendanceModel.StoredIdempotent | models/Attendance.js:22-30 | storing a stored record again changes nothing |
| Text.TrimUpperCommute | models/Attendance.js:22-26 | trimming and upper-casing a code commute, so the setter order is irrelevant |
| AttendanceModel.NoCodeUnconstrained | models/Attendance.js:45-54 | records without a subject code never collide, even repeated for the same student and day |
| AttendanceModel.CaseVariantsCollide | models/Attendance.js:22-51 | two codes for the same student and day that differ only in case or blanks collide once stored, under the declared index |
| AttendanceModel.AppendUniqueIff | models/Attendance.js:45-51 | appending to clash-free records stays clash-free exactly when the new records clash with nothing old or new |
| AttendanceModel.InsertMany | routes/attendance.js:94-96 | under the declared unique index, the insert succeeds exactly when the stored batch clashes with nothing; the collection is then the old records followed by the batch, still clash-free; otherwise 500 |
| AttendanceUpload.Bump | routes/attendance.js:45-63 | counting one entry changes only that student's group and raises the grand total by one |
| AttendanceUpload.StatusesPartitionEntries | routes/attendance.js:57-63 | a student's entries split into present, late and absent ones, so attended ≤ total |
| AttendanceUpload.TallyMatchesCounts | routes/attendance.js:29-73 | each student's increment is its counted entries by status; a group exists exactly for students with entries; one group per student; totals sum to the batch length |
| AttendanceUpload.ApplyIncrementsEffect | routes/attendance.js:75-92 | each student gets exactly its own increment; students without one are untouched |
| AttendanceUpload.AuditRecords | routes/attendance.js:65-72 | one audit record per entry, in entry order, with the entry's student and status, a falsy code or name stored as null, and the marking teacher |
| AttendanceUpload.Upload | routes/attendance.js:8-119 | 400 with no writes exactly for an empty or non-array body or an invalid entry; over a clash-free collection and under the declared index, a valid batch succeeds exactly when its audit records clash with no stored key or each other, and is otherwise 500 with no writes; on success every student gains its counted increment, markedCount is the batch length, and one audit record per entry is appended |
| AttendanceUpload.MarkedCountIsSumOfTotals | routes/attendance.js:75-104 | the bulk-write increments add up to the reported markedCount |
| AttendanceUpload.UploadKeepsAttendedWithinTotal | routes/attendance.js:45-92 | a successful upload keeps attended ≤ total for every student |
| AttendanceHistory.PlaceByDay | routes/attendance.js:150-172 | filing a record changes only its day's summary, opening it when new |
| AttendanceHistory.PlaceByDayDistinct | routes/attendance.js:153-162 | filing keeps one summary per day |
| AttendanceHistory.DayTotalsBalance | routes/attendance.js:164-172 | a day's total equals present + late + absent, and the number of its subject lines |
| AttendanceHistory.GroupByDayMatchesCounts | routes/attendance.js:150-172 | each day with records has one summary holding its counted totals and subject lines in record order; days without records have none |
| AttendanceHistory.GroupByDayNewestFirst | routes/attendance.js:140-162 | when records arrive newest first, the day summaries are in strictly decreasing day order |
| AttendanceHistory.DailyHistoryOldestFirst | routes/attendance.js:140-210 | the reversed daily history lists each day once, oldest first |
| AttendanceHistory.PlaceByMonth | routes/attendance.js:174-189 | counting a record changes only its month and keeps month keys ascending |
| AttendanceHistory.MonthlyStatsMatchCounts | routes/attendance.js:174-181 | each month with records has its counted present-or-late and total; attended ≤ total |
| AttendanceHistory.Percentage | routes/attendance.js:188 | the percentage is the integer nearest 100·attended/total (halves up), 0 without records, and within 0..100 |
| AttendanceHistory.MonthlyTrend | routes/attendance.js:184-189 | one point per month, months strictly ascending, each the rounded percentage of that month |
| AttendanceHistory.MonthlyTrendInRange | routes/attendance.js:174-189 | every point lies in 0..100 and is the rounded share of that month's present-or-late records |
| Numerals.ParseIntShow | routes/student.js:91-92 | `parseInt` reads a decimal numeral back, whatever non-digit text follows |
| Numerals.ParseIntNegative | routes/student.js:91 | `parseInt("-n")` is −n |
| Numerals.ToNumberShow | routes/student.js:147 | `Number` reads a decimal numeral back |
| Numerals.ParseIntAgreesWithNumber | controllers/attendanceController.js:173-174 | where `Number` reads a non-blank integer numeral, `parseInt` gives the same value |
| Paging.OrDefault | routes/student.js:91-92 | `parseInt(x) \|\| d`: the parsed value when it is a non-zero number, and the default exactly when x is absent, not a numeral, or 0 |
| Paging.OrDefaultNonZero | routes/student.js:91-92 | with a non-zero default the value is never 0; a positive numeral is taken as written; "0" gives the default |
| Paging.CeilDiv | routes/student.js:116 | the result is the least integer not below a / b, for either sign of b |
| Paging.PageCount | routes/student.js:116 | there is no page count exactly when the limit is 0; for a positive limit it is 0 exactly for an empty collection |
| Paging.Window | routes/student.js:103-108 | a negative skip is 500; otherwise the rows are consecutive items from the skip position, at most \|limit\| of them, and fewer only at the end of the items |
| Paging.Paginate | routes/student.js:102-119 | the reply reports page, limit, the total and the page count beside the window's rows |
| Paging.FirstPagesPrefix | routes/student.js:105-107 | pages 1 to k together are the first k·limit items |
| Paging.PagesCoverItems | routes/student.js:102-117 | walking all reported pages returns every item once, in order |
| Paging.PageCountIsTight | routes/student.js:105-116 | a page past the count is empty, and the last counted page is not |
| Paging.ListPage | controllers/attendanceController.js:160-191 | the destructuring defaults apply only to absent parameters; 500 exactly for a negative skip; the reply reports the page and limit used and the collection size, and its rows are the store's window for that skip and limit |
| Paging.ExplicitPageZero | controllers/attendanceController.js:163-174 | an explicit page 0 is a negative skip and fails there, while the student listing reads "0" as page 1 |
| Paging.ZeroLimitListsAll | controllers/attendanceController.js:171-188 | limit 0 returns every item on page 1 and no page count |
| TeacherModel.FirstCovering | routes/teacher.js:194 | the scan finds a covering subject exactly when the teacher teaches the student, and it is the first one |
| TeacherModel.OtherDepartmentNeedsOverride | routes/teacher.js:194-196 | a teacher of another department has access exactly through the Admin/HOD role |
| TeacherModel.AccessByClass | routes/teacher.js:194-201 | access depends on the student only through semester, section and department |
| TeacherModel.MoreSubjectsKeepAccess | routes/teacher.js:282-289 | taking on another class never withdraws access |
| TeacherModel.TeachesSubjectTeachesClass | controllers/attendanceController.js:57-62 | whoever takes a subject for a class teaches every student of that class in their department |
| StudentRoutes.Warn | routes/student.js:41-60 | 404 for an unknown student; a truthy reason appends exactly one warning at the end; a supplied flag sets isAtRisk and riskLevel High/Low with it; an absent flag changes neither |
| StudentRoutes.WarnChangesOnlyRisk | routes/student.js:44-55 | nothing but warnings, flag and risk level changes; storable documents stay storable; attended ≤ total is kept |
| StudentRoutes.WarningsAccumulate | routes/student.js:47-49 | two warnings leave both at the end, in order |
| StudentRoutes.PatchAttendance | routes/student.js:19-38 | 404 for an unknown student; a missing amount is 500; otherwise exactly the amounts are added and nothing else changes |
| StudentRoutes.PatchKeepsAttendedWithinTotal | routes/student.js:25-26 | with 0 ≤ attended ≤ total the patch keeps attended ≤ total |
| StudentRoutes.PatchCanBreakInvariant | routes/student.js:25-26 | without that bound the patch can make attended exceed total |
| StudentRoutes.PatchesCompose | routes/student.js:25-26 | two patches equal one patch with the summed amounts |
| StudentRoutes.ListAll | routes/student.js:84-127 | 403 exactly for roles other than Admin, Teacher, HOD; page and limit default to 1 and 20; success exactly for an allowed role and a non-negative skip, any other failure being 500; the rows are the store's window of the roster |
| StudentRoutes.ListAllDefaults | routes/student.js:91-107 | without parameters the listing is the first twenty students |
| StudentRoutes.ListAllNegativePage | routes/student.js:91-106 | a negative page reaches the store as a negative skip and fails |
| StudentRoutes.ClassMembers | routes/student.js:146-152 | exactly the students of that semester, section and department |
| StudentRoutes.ClassMembersAppend | routes/student.js:146-152 | the class of a concatenated roster is the class of each part in turn, so roster order and repetitions are kept |
| StudentRoutes.ClassMembersSingle | routes/student.js:146-152 | a single student is kept exactly when in the class |
| StudentRoutes.ClassRoster | routes/student.js:138-163 | 400 exactly when a parameter is falsy; 500 exactly when the semester is not a number; otherwise success, with the class members of the roster, in roster order, the section upper-cased |
| StudentRoutes.RosterIgnoresSectionCase | routes/student.js:148 | sections that differ only in letter case give the same roster |
| TeacherRoutes.TaughtStudentsCounted | routes/teacher.js:29-36 | every student the teacher teaches is within the totalStudents query |
| TeacherRoutes.PendingMarking | routes/teacher.js:57-93 | pending is never negative or above the classes; it is 0 exactly when as many codes were marked as there are classes |
| TeacherRoutes.Breakdown | routes/teacher.js:61-71 | one entry per distinct (semester, section) the teacher takes, first one first, each holding that class's head-count |
| TeacherRoutes.TeacherDashboard | routes/teacher.js:12-111 | 404 exactly for an unknown teacher, success otherwise; markedToday counts the distinct codes marked today, pendingMarking is max(0, classes today − marked), and totalStudents counts the teacher's department over the taught semesters and sections, lowAttendanceCount counts the teacher's department over the taught semesters with attendance below 75, and the breakdown comes from the teacher's classes |
| TeacherRoutes.MarkingLowersPending | routes/teacher.js:45-58 | marking another record never raises pendingMarking |
| TeacherRoutes.Latest | routes/teacher.js:140 | the latest result exists exactly when there is one, and no result has a later semester |
| TeacherRoutes.LatestIsUnique | routes/teacher.js:140 | with unique semesters the latest result is the one with the largest semester |
| TeacherRoutes.RowOf | routes/teacher.js:139-160 | totalSubjects is the latest semester's subject count and failedSubjects its F/Ab count (so failed ≤ total); the SGPA is reported exactly when the latest one is non-zero; without results the row has no subjects and no SGPA |
| TeacherRoutes.MyStudentsAsWritten | routes/teacher.js:112-177 | 404 for an unknown teacher; 500 when there are no subjects (empty `$or`); success otherwise, with one row per student matching some taught semester, section and batch, in any department, built from the projected document without results (no subjects, no failures, no SGPA) |
| TeacherRoutes.ListingShowsForeignStudent | routes/teacher.js:128-134 | a student of another department in a taught class is listed although the detail route refuses the teacher access |
| TeacherRoutes.MyStudents | routes/teacher.js:112-177 | the same outcomes as written, but the listing also requires the teacher's department and the rows are built from the full documents |
| TeacherRoutes.ListingHidesMarks | routes/teacher.js:135-159 | as written, a student whose latest semester has subjects is listed with no subjects |
| TeacherRoutes.ListingReportsLatest | routes/teacher.js:139-160 | the corrected listing reports the latest semester's subject and F/Ab counts |
| TeacherRoutes.ListingMatchesAccess | routes/teacher.js:194-201 | every student the corrected listing shows is one the teacher may open, and every student of the teacher's own classes is shown |
| TeacherRoutes.SummaryBalances | routes/teacher.js:204-215 | present, absent and late are each the count of the student's records with that status, and their sum is the total, the student's record count |
| TeacherRoutes.StudentDetail | routes/teacher.js:178-255 | 404 for an unknown teacher or student; 403 exactly when the teacher neither teaches the student nor is Admin/HOD, success otherwise; the summary is the student's own per-status record counts (all zero without records), and it balances |
| TeacherRoutes.NoRecordsZeroSummary | routes/teacher.js:239 | a student without records gets the all-zero summary |
| TeacherRoutes.MentorFrom | routes/teacher.js:292 | the stored name and phone are the trimmed inputs, neither longer than given |
| TeacherRoutes.MentorIgnoresBlanks | routes/teacher.js:292 | surrounding blanks in the name or phone do not change the stored mentor |
| TeacherRoutes.AssignMentor | routes/teacher.js:258-313 | 400 exactly for a falsy name or phone; 404 for an unknown student; 500 when the teacher document is missing; 403 exactly without access; otherwise only the mentor changes |
| TeacherRoutes.AssignMentorIdempotent | routes/teacher.js:291-293 | assigning the same mentor again changes nothing |
| Assignments.ListField | controllers/attendanceController.js:97-98 | a falsy list field gives the default; a truthy one is split on commas and each piece trimmed |
| Assignments.CreateAssignment | controllers/attendanceController.js:12-155 | 400 for a missing required field, then for a missing file; 404 for an unknown teacher; 403 exactly when the teacher takes no matching subject/semester/section/batch; 500 exactly when a supplied total is not a number; a created assignment is for a class its creator takes, carries the form's title, subject code and name, section, batch and department, an empty description or instructions when those are falsy, totalMarks defaulting to 100, tags to none and formats to pdf/doc/docx, and totalStudents counts that class |
| Assignments.TagsRoundTrip | controllers/attendanceController.js:97 | tags written as a comma-joined list of trimmed, comma-free words (other than one lone empty tag, whose empty text is falsy) are stored as exactly those words |
| Assignments.SubmitAssignment | controllers/attendanceController.js:289-417 | 400 for a missing id or file; 404 for an unknown assignment; 403 exactly when the student is not in the assignment's department, semester, section and batch; success for every enrolled student; late exactly after the due date; a resubmission counts one more, appends the previous file as a version, and changes nothing but the file, time, status, notes and history, so marks, feedback and grading stay; only a first submission raises submissionsCount |
| Assignments.SubmitKeepsHistory | controllers/attendanceController.js:340-358 | resubmissionCount stays equal to the number of previous versions, and older versions are never lost or reordered |
| Assignments.SubmissionCountsFirstOnly | controllers/attendanceController.js:340-378 | submissionsCount grows by one for a first submission and not for a resubmission |
| Assignments.ResubmittingGradedKeepsMarks | controllers/attendanceController.js:340-358 | resubmitting a graded submission makes it ungraded again while its marks stay |
| Assignments.MarkGraded | controllers/attendanceController.js:541-547 | grading sets the given marks, the grading teacher, the time and status graded, fills in feedback and grade, and changes nothing else |
| Assignments.GradeSubmissionAsWritten | controllers/attendanceController.js:501-587 | 400 exactly for absent or zero marks, or for the creator giving marks above the total; 404 for an unknown submission; 403 exactly for a grading teacher other than the creator; success exactly for non-zero marks up to the total |
| Assignments.ZeroMarksRejected | controllers/attendanceController.js:507-512 | a mark of 0 is turned away as missing, while a mark of 1 within the same total is accepted |
| Assignments.GradeSubmission | controllers/attendanceController.js:501-587 | as written, except that only absent marks are missing: 400 exactly for absent marks or for the creator giving marks above the total, 404, 403, and success exactly for marks up to the total |
| Assignments.GradingAcceptsUpToTotal | controllers/attendanceController.js:533-547 | the creator can grade with exactly the marks not above the total, 0 included, and those marks are stored |
| Assignments.GradingAgreesExceptZero | controllers/attendanceController.js:507-539 | the corrected handler answers every request as written except one carrying 0 marks |
| Assignments.MaxOf | controllers/attendanceController.js:659 | the highest mark is one of the marks and no mark exceeds it |
| Assignments.MinOf | controllers/attendanceController.js:660 | the lowest mark is one of the marks and no mark is below it |
| Assignments.MeanBetween | controllers/attendanceController.js:658-660 | the average lies between the lowest and the highest mark |
| Assignments.UpdateStatistics | controllers/attendanceController.js:649-672 | with no graded submissions the assignment is unchanged; otherwise only its statistics change: the graded count, highest and lowest among the marks with every mark between them, and the average is the sum of the marks over their count |
| Assignments.PageStats | controllers/attendanceController.js:454-479 | graded counts the page's submissions with truthy marks; pending is the total minus graded (not negative when the total covers the page); with none graded all marks are 0; otherwise the highest and lowest are graded marks with every graded mark between them, and the average is the sum of the graded marks over their count |

## Left out

- Database access, `select`/`populate`, sessions and transactions are not modelled as code, except the my-students projection, which leaves out `academics` (`TeacherRoutes.ProjectedRowOf`). A loaded document is a parameter. The attendance batch is "validate all, then apply all" on a map of students. Concurrent writers and isolation are not modelled.
- The save hook that would recompute CGPA, currentBacklogs, totalBacklogsEver, riskScore, riskLevel and attendancePercentage does not exist in the student schema, so these fields are never recomputed here. The misspelled `currentBackloads` in the marks reply is not modelled, because it is reply text only.
- `utils/gradePoints.js`, where the upload's grade table lives (`routes/marks.js:6`), is not part of this model. The model assumes that table equals the one written out in `models/Student.js:4-13`.
- Floating point: SGPA and averages are exact rationals. `toFixed(2)` and the two-decimal `Math.round` are not applied. The month percentage is the exact round-half-up of the rational.
- Clocks and dates: `now` is a parameter in milliseconds, and a day boundary is a multiple of 86 400 000 ms (UTC, no time zones). Day and month keys of the history are opaque ordered integers. An unparseable date string is not modelled; a due date is given or absent.
- JavaScript coercion is not modelled beyond base-ten integer numerals. Hexadecimal, fractions, exponents and `Infinity` are out, and so are strings where the code expects numbers (marks, attended/total, credits). A JSON `null` amount in the counter patch is not modelled either: the source adds it as 0 and succeeds (`routes/student.js:25-26`), while `StudentRoutes.PatchAttendance` only knows a number or an absent amount, which answers 500. Semesters are integers. So is the string-vs-number `!==` in the semester filter of the marks upload.
- `Text`: trimming knows the ASCII blanks plus no-break space and byte-order mark; case mapping is ASCII only. Unicode whitespace and case folding beyond that are not modelled.
- Regex search in the student listing is not modelled, because it is pattern matching inside the store. The listing is modelled without a search term.
- File upload, disk storage, deletion on error and `downloadFile` are not modelled, because they are file-system I/O. A file is its URL and name.
- SMS sending (`utils/sendSMS.js`, the test-SMS route) is not modelled, because it is network I/O.
- Timetable lookups are not modelled. The dashboard takes the number of today's classes as a parameter.
- The list filters of `getTeacherAssignments`/`getStudentAssignments` (status, subject, class) and the per-assignment submission lookup are store queries. Only their pagination (`Paging.ListPage`) is modelled.
- Updates the schema would drop in strict mode are not modelled: the teacher's `assignmentsCreated`/`uploadedFiles`, the student's `assignments` `$addToSet`, and the student assignment `$set` after grading. Those fields are not in the schemas shown.
- The assignment and submission schemas are not part of this model. Their own validators (a possible minimum on marks, the `status` field the student listing filters on) are unknown. Negative marks are therefore accepted as the handler accepts them.
- A malformed id in the URL is not modelled. `findById` throws a cast error for it and the handler answers 500 (`routes/student.js:22,44`, `routes/teacher.js:187`, `controllers/attendanceController.js:309,318,515`); the model only knows a found or a missing document, which answers 404. Likewise a submission whose assignment has been deleted is not modelled: `submission.assignment.createdBy` then throws and the source answers 500 (`controllers/attendanceController.js:526`), while `Assignments.GradeSubmission` and its as-written twin always receive a submission together with its assignment.
- AttendanceModel.InsertMany: assumes the unique index of `models/Attendance.js:45-51` is in force. Its partial filter uses `$ne: null`, which MongoDB does not accept in a partial filter expression (it allows equality, `$exists: true`, comparisons, `$type`, `$and`, and from 6.0 `$or` and `$in`), so the server may refuse to build the index. Without it a batch repeating a (student, day, code) key is inserted and counted twice rather than answering 500, and `AttendanceUpload.Upload`'s success condition `!BatchClashes` would not apply.
- `isAtRisk` is a boolean or absent. Other JSON values, which Mongoose would cast, are not modelled.
- `getMyMentor`, `server.js` and `start.js` are not modelled, because they carry no rules.
- StudentRoutes.ListAll: stated for the listing without a search term only.

## Findings

| source | as written | input that shows it | evidently intended | confidence | as-written member | corrected member |
|---|---|---|---|---|---|---|
| controllers/attendanceController.js:507-512 | `if (!marksObtained)` answers 400 "Marks are required" | the assignment creator grades a submission with `marksObtained: 0` on a 100-mark assignment | 0 is a valid mark; only absent marks are missing | not executed; high | Assignments.ZeroMarksRejected | Assignments.GradingAcceptsUpToTotal |
| routes/teacher.js:128-134 | the my-students query matches semester, section and batch, but not department | a teacher in department X who takes semester 3, section A, batch 2023 lists a student in department Y of that class | the listing shows the same students the detail route lets the teacher open, which requires the department to match (routes/teacher.js:194) | not executed; medium | TeacherRoutes.ListingShowsForeignStudent | TeacherRoutes.ListingMatchesAccess |
| routes/teacher.js:135-159 | the listing's `select` leaves out `academics`, yet each row reads `student.academics` for its subject count, F/Ab count and SGPA | a student whose latest semester has 5 subjects, one graded F, and SGPA 7.2 is listed with totalSubjects 0, failedSubjects 0 and sgpa "N/A" | each row reports the student's latest semester | not executed; high | TeacherRoutes.ListingHidesMarks | TeacherRoutes.ListingReportsLatest |

=== FILE: assignments.dfy ===
/** The assignment lifecycle: a teacher creates an assignment for a class
    they take, students of that class submit (and resubmit) files, the
    creating teacher grades submissions, and the assignment's statistics are
    recomputed from its graded submissions. Files are referred to by the URL
    and name the upload layer gives them. */
module Assignments {
  import opened Wrappers
  import opened StudentModel
  import opened TeacherModel
  import Numerals
  import Text
  import TeacherRoutes
  import Ratios

  /** A stored file: its URL under /uploads and its original name. */
  datatype FileRef = FileRef(url: string, name: string)

  /** The multipart form of `createAssignment`; every field arrives as text.
      `dueDate` is the instant the text denotes, `None` when absent or empty. */
  datatype AssignmentForm = AssignmentForm(
    title: Option<string>,
    description: Option<string>,
    subjectCode: Option<string>,
    subjectName: Option<string>,
    semester: Option<string>,
    section: Option<string>,
    batch: Option<string>,
    department: Option<string>,
    totalMarks: Option<string>,
    dueDate: Option<Time>,
    instructions: Option<string>,
    tags: Option<string>,
    allowedFormats: Option<string>)

  /** The statistics `updateAssignmentStatistics` writes. */
  datatype Statistics = Statistics(averageMarks: real, highestMarks: int, lowestMarks: int, gradedCount: nat)

  datatype Assignment = Assignment(
    id: Id,
    title: string,
    description: string,
    subjectCode: string,
    subjectName: string,
    semester: int,
    section: string,
    batch: string,
    department: string,
    createdBy: Id,
    file: FileRef,
    totalMarks: int,
    dueDate: Time,
    instructions: string,
    tags: seq<string>,
    allowedFormats: seq<string>,
    totalStudents: nat,
    submissionsCount: nat,
    statistics: Option<Statistics>)

  // ---------------------------------------------------------------------
  // Creating an assignment

  /** The eight fields the handler insists on, each truthy. */
  predicate RequiredPresent(f: AssignmentForm) {
    && Truthy(f.title) && Truthy(f.subjectCode) && Truthy(f.subjectName) && Truthy(f.semester)
    && Truthy(f.section) && Truthy(f.batch) && Truthy(f.department) && f.dueDate.Some?
  }

  /** An optional text field, `''` when falsy. */
  function TextOr(s: Option<string>): string {
    if Truthy(s) then s.value else ""
  }

  /** A comma-separated list field, split and trimmed, or the default when
      the field is falsy. */
  function ListField(s: Option<string>, default: seq<string>): (items: seq<string>)
    ensures !Truthy(s) ==> items == default
    ensures Truthy(s) ==> items == Text.SplitTrimmed(s.value, ',')
  {
    if Truthy(s) then Text.SplitTrimmed(s.value, ',') else default
  }

  const DefaultFormats: seq<string> := ["pdf", "doc", "docx"]

  /** The students the new assignment is counted against: same department,
      semester, section and batch. */
  predicate InAssignmentClass(s: Student, department: string, semester: int, section: string, batch: string) {
    s.department == department && s.semester == semester && s.section == section && s.batch == batch
  }

  /** `createAssignment`. In order: the eight required fields (400), the
      uploaded file (400), the teacher document (404), and that the teacher
      takes this subject for this semester, section and batch (403). A
      supplied total that is not a number fails the store's cast (500);
      otherwise the total defaults to 100, tags to none and formats to pdf,
      doc and docx. */
  function CreateAssignment(id: Id, teacherId: Id, f: AssignmentForm, file: Option<FileRef>,
                            teacher: Option<Teacher>, students: seq<Student>): (r: Result<Assignment, HttpError>)
    ensures !RequiredPresent(f) ==> r == Failure(BadRequest)
    ensures r == Failure(BadRequest) <==> !RequiredPresent(f) || file.None?
    ensures RequiredPresent(f) && file.Some? && teacher.None? <==> r == Failure(NotFound)
    ensures r == Failure(Forbidden) <==> (RequiredPresent(f) && file.Some? && teacher.Some? &&
      !TeachesSubject(teacher.value, f.subjectCode.value, Numerals.ParseInt(f.semester.value), f.section.value, f.batch.value))
    ensures r == Failure(ServerError) <==> (RequiredPresent(f) && file.Some? && teacher.Some? &&
      TeachesSubject(teacher.value, f.subjectCode.value, Numerals.ParseInt(f.semester.value), f.section.value, f.batch.value) &&
      Truthy(f.totalMarks) && Numerals.ToNumber(f.totalMarks.value).None?)
    ensures r.Success? ==> var a := r.value;
      && TeachesSubject(teacher.value, a.subjectCode, Some(a.semester), a.section, a.batch)
      && Numerals.ParseInt(f.semester.value) == Some(a.semester)
      && a.id == id && a.createdBy == teacherId && a.file == file.value && a.dueDate == f.dueDate.value
      && a.title == f.title.value && a.department == f.department.value
      && a.subjectCode == f.subjectCode.value && a.subjectName == f.subjectName.value
      && a.section == f.section.value && a.batch == f.batch.value
      && a.description == TextOr(f.description) && a.instructions == TextOr(f.instructions)
      && a.tags == ListField(f.tags, []) && a.allowedFormats == ListField(f.allowedFormats, DefaultFormats)
      && (!Truthy(f.totalMarks) ==> a.totalMarks == 100)
      && (Truthy(f.totalMarks) ==> Numerals.ToNumber(f.totalMarks.value) == Some(a.totalMarks))
      && a.totalStudents == TeacherRoutes.CountWhere(students,
           (s: Student) => InAssignmentClass(s, a.department, a.semester, a.section, a.batch))
      && a.submissionsCount == 0 && a.statistics.None?
  {
    if !RequiredPresent(f) then Failure(BadRequest)
    else if file.None? then Failure(BadRequest)
    else if teacher.None? then Failure(NotFound)
    else
      var semester := Numerals.ParseInt(f.semester.value);
      if !TeachesSubject(teacher.value, f.subjectCode.value, semester, f.section.value, f.batch.value) then Failure(Forbidden)
      else
        var total := if Truthy(f.totalMarks) then Numerals.ToNumber(f.totalMarks.value) else Some(100);
        if total.None? then Failure(ServerError)
        else
          var sem := semester.value;
          Success(Assignment(
            id, f.title.value, TextOr(f.description), f.subjectCode.value, f.subjectName.value,
            sem, f.section.value, f.batch.value, f.department.value, teacherId, file.value,
            total.value, f.dueDate.value, TextOr(f.instructions),
            ListField(f.tags, []), ListField(f.allowedFormats, DefaultFormats),
            TeacherRoutes.CountWhere(students, (s: Student) => InAssignmentClass(s, f.department.value, sem, f.section.value, f.batch.value)),
            0, None))
  }

  /** Tags written as a comma-separated list of trimmed, comma-free words
      are stored as exactly those words. */
  lemma TagsRoundTrip(tags: seq<string>)
    requires |tags| >= 1
    requires forall k :: 0 <= k < |tags| ==> ',' !in tags[k] && Text.Trim(tags[k]) == tags[k]
    requires |tags| >= 2 || tags[0] != ""
    ensures ListField(Some(Text.Join(tags, ',')), []) == tags
  {
    if |tags| >= 2 {
      assert Text.Join(tags, ',') == tags[0] + [','] + Text.Join(tags[1..], ',');
    }
    Text.SplitJoin(tags, ',');
  }

  // ---------------------------------------------------------------------
  // Submitting

  datatype SubmissionStatus = Submitted | Late | Graded

  /** An earlier file of a resubmitted submission. */
  datatype Version = Version(fileUrl: string, fileName: string, submittedAt: Time)

  datatype Submission = Submission(
    assignment: Id,
    student: Id,
    file: FileRef,
    submittedAt: Time,
    status: SubmissionStatus,
    studentNotes: string,
    totalMarks: int,
    resubmissionCount: nat,
    previousVersions: seq<Version>,
    marksObtained: Option<int>,
    feedback: string,
    grade: string,
    gradedBy: Option<Id>,
    gradedAt: Option<Time>)

  /** The student belongs to the assignment's class. */
  predicate Enrolled(s: Student, a: Assignment) {
    s.department == a.department && s.semester == a.semester && s.section == a.section && s.batch == a.batch
  }

  /** Every resubmission left exactly one earlier version behind. */
  predicate HistoryConsistent(sub: Submission) {
    sub.resubmissionCount == |sub.previousVersions|
  }

  datatype SubmitOutcome = SubmitOutcome(submission: Submission, assignment: Assignment, isLate: bool)

  /** `submitAssignment` for the student `studentId` at `now`. `existing`
      is the earlier submission of this student to this assignment, if any.
      In order: the assignment id (400), the file (400), the assignment
      (404), and the student's class (403). A submission after the due
      date is late. A resubmission keeps the previous file as a version;
      only a first submission counts towards the assignment's total. */
  function SubmitAssignment(assignmentId: Option<string>, file: Option<FileRef>, assignment: Option<Assignment>,
                            student: Option<Student>, studentId: Id, existing: Option<Submission>,
                            notes: Option<string>, now: Time): (r: Result<SubmitOutcome, HttpError>)
    ensures !Truthy(assignmentId) || file.None? <==> r == Failure(BadRequest)
    ensures Truthy(assignmentId) && file.Some? && assignment.None? <==> r == Failure(NotFound)
    ensures r == Failure(Forbidden) <==> (Truthy(assignmentId) && file.Some? && assignment.Some? &&
      (student.None? || !Enrolled(student.value, assignment.value)))
    ensures r.Success? <==> (Truthy(assignmentId) && file.Some? && assignment.Some? &&
      student.Some? && Enrolled(student.value, assignment.value))
    ensures r.Success? ==> var o := r.value; var sub := o.submission;
      && (o.isLate <==> now > assignment.value.dueDate)
      && sub.status == (if o.isLate then Late else Submitted)
      && sub.file == file.value && sub.submittedAt == now && sub.studentNotes == TextOr(notes)
    ensures r.Success? && existing.Some? ==> var sub := r.value.submission; var e := existing.value;
      && sub.resubmissionCount == e.resubmissionCount + 1
      && sub.previousVersions == e.previousVersions + [Version(e.file.url, e.file.name, e.submittedAt)]
      && sub.marksObtained == e.marksObtained
      && sub.(file := e.file, submittedAt := e.submittedAt, status := e.status, studentNotes := e.studentNotes,
              resubmissionCount := e.resubmissionCount, previousVersions := e.previousVersions) == e
      && r.value.assignment == assignment.value
    ensures r.Success? && existing.None? ==> var sub := r.value.submission;
      && sub.resubmissionCount == 0 && sub.previousVersions == [] && sub.marksObtained.None?
      && sub.assignment == assignment.value.id && sub.student == studentId
      && sub.totalMarks == assignment.value.totalMarks
      && r.value.assignment == assignment.value.(submissionsCount := assignment.value.submissionsCount + 1)
  {
    if !Truthy(assignmentId) || file.None? then Failure(BadRequest)
    else if assignment.None? then Failure(NotFound)
    else if student.None? || !Enrolled(student.value, assignment.value) then Failure(Forbidden)
    else
      var a := assignment.value;
      var isLate := now > a.dueDate;
      var status := if isLate then Late else Submitted;
      match existing
      case Some(e) =>
        var prior := Version(e.file.url, e.file.name, e.submittedAt);
        var sub := e.(file := file.value, submittedAt := now, status := status,
                      resubmissionCount := e.resubmissionCount + 1, studentNotes := TextOr(notes),
                      previousVersions := e.previousVersions + [prior]);
        Success(SubmitOutcome(sub, a, isLate))
      case None =>
        var sub := Submission(a.id, studentId, file.value, now, status, TextOr(notes), a.totalMarks,
                              0, [], None, "", "", None, None);
        Success(SubmitOutcome(sub, a.(submissionsCount := a.submissionsCount + 1), isLate))
  }

  /** Submitting keeps the version history consistent: a first submission
      starts it, and a resubmission adds one version per extra upload while
      the older versions stay as they were, in order. */
  lemma SubmitKeepsHistory(assignmentId: Option<string>, file: Option<FileRef>, assignment: Option<Assignment>,
                           student: Option<Student>, studentId: Id, existing: Option<Submission>,
                           notes: Option<string>, now: Time)
    requires existing.None? || HistoryConsistent(existing.value)
    requires SubmitAssignment(assignmentId, file, assignment, student, studentId, existing, notes, now).Success?
    ensures var sub := SubmitAssignment(assignmentId, file, assignment, student, studentId, existing, notes, now).value.submission;
      && HistoryConsistent(sub)
      && (existing.Some? ==> existing.value.previousVersions <= sub.previousVersions)
  {
  }

  /** The assignment's submission count goes up by one exactly for a first
      submission. */
  lemma SubmissionCountsFirstOnly(assignmentId: Option<string>, file: Option<FileRef>, assignment: Option<Assignment>,
                                  student: Option<Student>, studentId: Id, existing: Option<Submission>,
                                  notes: Option<string>, now: Time)
    requires SubmitAssignment(assignmentId, file, assignment, student, studentId, existing, notes, now).Success?
    ensures var a := SubmitAssignment(assignmentId, file, assignment, student, studentId, existing, notes, now).value.assignment;
      a.submissionsCount == assignment.value.submissionsCount + (if existing.None? then 1 else 0)
  {
  }

  /** Resubmitting a graded submission returns it to submitted (or late)
      while the marks already given stay on it. */
  lemma ResubmittingGradedKeepsMarks(assignmentId: string, file: FileRef, a: Assignment, s: Student,
                                     e: Submission, now: Time)
    requires assignmentId != "" && Enrolled(s, a) && e.status == Graded && e.marksObtained.Some?
    ensures var sub := SubmitAssignment(Some(assignmentId), Some(file), Some(a), Some(s), s.id, Some(e), None, now).value.submission;
      sub.status != Graded && sub.marksObtained == e.marksObtained
  {
  }

  // ---------------------------------------------------------------------
  // Grading

  /** The grade request body: `marksObtained` (`None` when absent), and the
      optional feedback and letter grade. */
  datatype GradeRequest = GradeRequest(marks: Option<int>, feedback: Option<string>, grade: Option<string>)

  /** The submission marked as graded by `teacherId` at `now`. */
  function MarkGraded(sub: Submission, req: GradeRequest, teacherId: Id, now: Time): (g: Submission)
    requires req.marks.Some?
    ensures g.status == Graded && g.marksObtained == req.marks && g.gradedBy == Some(teacherId) && g.gradedAt == Some(now)
    ensures g.(marksObtained := sub.marksObtained, feedback := sub.feedback, grade := sub.grade,
               gradedBy := sub.gradedBy, gradedAt := sub.gradedAt, status := sub.status) == sub
  {
    sub.(marksObtained := req.marks, feedback := TextOr(req.feedback), grade := TextOr(req.grade),
         gradedBy := Some(teacherId), gradedAt := Some(now), status := Graded)
  }

  /** `gradeSubmission` as written. `found` is the submission with its
      assignment. In order: falsy marks (400) — which includes 0 — the
      submission (404), the grading teacher being the assignment's creator (403),
      and marks above the total (400). */
  function GradeSubmissionAsWritten(req: GradeRequest, found: Option<(Submission, Assignment)>,
                                    teacherId: Id, now: Time): (r: Result<Submission, HttpError>)
    ensures req.marks.None? || req.marks == Some(0) ==> r == Failure(BadRequest)
    ensures req.marks.Some? && req.marks.value != 0 && found.None? <==> r == Failure(NotFound)
    ensures r == Failure(Forbidden) <==> (req.marks.Some? && req.marks.value != 0 && found.Some? &&
      found.value.1.createdBy != teacherId)
    ensures r.Success? <==> (req.marks.Some? && req.marks.value != 0 && found.Some? &&
      found.value.1.createdBy == teacherId && req.marks.value <= found.value.1.totalMarks)
    ensures r == Failure(BadRequest) <==> (req.marks.None? || req.marks == Some(0) ||
      (found.Some? && found.value.1.createdBy == teacherId && req.marks.value > found.value.1.totalMarks))
    ensures r.Success? ==> r.value == MarkGraded(found.value.0, req, teacherId, now)
  {
    if req.marks.None? || req.marks.value == 0 then Failure(BadRequest)
    else if found.None? then Failure(NotFound)
    else if found.value.1.createdBy != teacherId then Failure(Forbidden)
    else if req.marks.value > found.value.1.totalMarks then Failure(BadRequest)
    else Success(MarkGraded(found.value.0, req, teacherId, now))
  }

  /** A submission that earned no marks cannot be graded as written: the
      request is turned away as if the marks were missing, although 0 is
      within the total and any positive mark within it is accepted. */
  lemma ZeroMarksRejected(sub: Submission, a: Assignment, teacherId: Id, now: Time)
    requires a.createdBy == teacherId && a.totalMarks >= 1
    ensures GradeSubmissionAsWritten(GradeRequest(Some(0), None, None), Some((sub, a)), teacherId, now) == Failure(BadRequest)
    ensures GradeSubmissionAsWritten(GradeRequest(Some(1), None, None), Some((sub, a)), teacherId, now).Success?
  {
  }

  /** `gradeSubmission` with the presence check it evidently intends: the
      marks must be supplied, and 0 is a mark like any other. The remaining
      checks are the ones written. */
  function GradeSubmission(req: GradeRequest, found: Option<(Submission, Assignment)>,
                           teacherId: Id, now: Time): (r: Result<Submission, HttpError>)
    ensures req.marks.None? ==> r == Failure(BadRequest)
    ensures req.marks.Some? && found.None? <==> r == Failure(NotFound)
    ensures r == Failure(Forbidden) <==> req.marks.Some? && found.Some? && found.value.1.createdBy != teacherId
    ensures r == Failure(BadRequest) <==> (req.marks.None? ||
      (found.Some? && found.value.1.createdBy == teacherId && req.marks.value > found.value.1.totalMarks))
    ensures r.Success? <==> (req.marks.Some? && found.Some? &&
      found.value.1.createdBy == teacherId && req.marks.value <= found.value.1.totalMarks)
    ensures r.Success? ==> r.value == MarkGraded(found.value.0, req, teacherId, now)
  {
    if req.marks.None? then Failure(BadRequest)
    else if found.None? then Failure(NotFound)
    else if found.value.1.createdBy != teacherId then Failure(Forbidden)
    else if req.marks.value > found.value.1.totalMarks then Failure(BadRequest)
    else Success(MarkGraded(found.value.0, req, teacherId, now))
  }

  /** The creator of an assignment can grade a submission with exactly the
      marks not above the total, 0 included, and the stored marks are the
      ones given. */
  lemma GradingAcceptsUpToTotal(m: int, sub: Submission, a: Assignment, teacherId: Id, now: Time)
    requires a.createdBy == teacherId
    ensures var r := GradeSubmission(GradeRequest(Some(m), None, None), Some((sub, a)), teacherId, now);
      (r.Success? <==> m <= a.totalMarks) && (r.Success? ==> r.value.marksObtained == Some(m) && r.value.status == Graded)
  {
  }

  /** For every request but one carrying 0 marks, the corrected handler
      answers exactly as the one written. */
  lemma GradingAgreesExceptZero(req: GradeRequest, found: Option<(Submission, Assignment)>, teacherId: Id, now: Time)
    requires req.marks != Some(0)
    ensures GradeSubmission(req, found, teacherId, now) == GradeSubmissionAsWritten(req, found, teacherId, now)
  {
  }

  // ---------------------------------------------------------------------
  // Statistics

  /** Maximum of a non-empty list. */
  function MaxOf(xs: seq<int>): (m: int)
    requires |xs| > 0
    ensures m in xs && forall k :: 0 <= k < |xs| ==> xs[k] <= m
  {
    if |xs| == 1 then xs[0]
    else
      var m := MaxOf(xs[..|xs| - 1]);
      if xs[|xs| - 1] > m then xs[|xs| - 1] else m
  }

  /** Minimum of a non-empty list. */
  function MinOf(xs: seq<int>): (m: int)
    requires |xs| > 0
    ensures m in xs && forall k :: 0 <= k < |xs| ==> m <= xs[k]
  {
    if |xs| == 1 then xs[0]
    else
      var m := MinOf(xs[..|xs| - 1]);
      if xs[|xs| - 1] < m then xs[|xs| - 1] else m
  }

  function Sum(xs: seq<int>): int {
    if |xs| == 0 then 0 else Sum(xs[..|xs| - 1]) + xs[|xs| - 1]
  }

  /** The sum lies between the count times the minimum and the count times
      the maximum. */
  lemma {:induction false} SumBounds(xs: seq<int>, lo: int, hi: int)
    requires forall k :: 0 <= k < |xs| ==> lo <= xs[k] <= hi
    ensures |xs| * lo <= Sum(xs) <= |xs| * hi
    decreases |xs|
  {
    if |xs| > 0 {
      SumBounds(xs[..|xs| - 1], lo, hi);
      assert |xs| * lo == (|xs| - 1) * lo + lo;
      assert |xs| * hi == (|xs| - 1) * hi + hi;
    }
  }

  /** Mean of a non-empty list, exactly (the two-decimal rounding is not
      modelled). */
  function Mean(xs: seq<int>): real
    requires |xs| > 0
  {
    Sum(xs) as real / |xs| as real
  }

  /** The mean lies between the minimum and the maximum. */
  lemma MeanBetween(xs: seq<int>)
    requires |xs| > 0
    ensures MinOf(xs) as real <= Mean(xs) <= MaxOf(xs) as real
  {
    SumBounds(xs, MinOf(xs), MaxOf(xs));
    Ratios.RatioBetween(Sum(xs), |xs|, MinOf(xs), MaxOf(xs));
  }

  /** The marks of a list of submissions, a missing mark reading as 0
      (`Math.max` and `+` treat `null` as 0). */
  function MarksOf(subs: seq<Submission>): (ms: seq<int>)
    ensures |ms| == |subs|
    ensures forall k :: 0 <= k < |subs| ==> ms[k] == subs[k].marksObtained.GetOr(0)
  {
    seq(|subs|, k requires 0 <= k < |subs| => subs[k].marksObtained.GetOr(0))
  }

  /** The assignment's graded submissions. */
  function GradedOf(a: Assignment, subs: seq<Submission>): seq<Submission> {
    TeacherRoutes.Filter(subs, (s: Submission) => s.assignment == a.id && s.status == Graded)
  }

  /** `updateAssignmentStatistics`: with graded submissions, their mean,
      highest and lowest marks and their number; with none, the assignment
      is left as it was. */
  function UpdateStatistics(a: Assignment, subs: seq<Submission>): (r: Assignment)
    ensures |GradedOf(a, subs)| == 0 ==> r == a
    ensures |GradedOf(a, subs)| > 0 ==> r.statistics.Some? && r.(statistics := a.statistics) == a
    ensures |GradedOf(a, subs)| > 0 ==> var st := r.statistics.value; var ms := MarksOf(GradedOf(a, subs));
      && st.gradedCount == |GradedOf(a, subs)|
      && st.highestMarks in ms && st.lowestMarks in ms
      && (forall k :: 0 <= k < |ms| ==> st.lowestMarks <= ms[k] <= st.highestMarks)
      && st.lowestMarks as real <= st.averageMarks <= st.highestMarks as real
      && st.averageMarks == Sum(ms) as real / (st.gradedCount as real)
  {
    var graded := GradedOf(a, subs);
    if |graded| == 0 then a
    else
      var ms := MarksOf(graded);
      MeanBetween(ms);
      a.(statistics := Some(Statistics(Mean(ms), MaxOf(ms), MinOf(ms), |graded|)))
  }

  /** The statistics block of the submissions listing, computed over the
      page shown: a submission counts as graded when its marks are truthy
      (present and not 0); `pendingCount` is the total over all pages minus
      the graded ones on this page. */
  datatype PageStatistics = PageStatistics(
    totalSubmissions: nat, gradedCount: nat, pendingCount: int,
    averageMarks: real, highestMarks: int, lowestMarks: int)

  predicate HasMarks(s: Submission) {
    s.marksObtained.Some? && s.marksObtained.value != 0
  }

  function PageStats(page: seq<Submission>, total: nat): (st: PageStatistics)
    ensures st.totalSubmissions == total
    ensures st.gradedCount == TeacherRoutes.CountWhere(page, HasMarks) <= |page|
    ensures st.pendingCount == total - st.gradedCount
    ensures total >= |page| ==> st.pendingCount >= 0
    ensures st.gradedCount == 0 ==> st.averageMarks == 0.0 && st.highestMarks == 0 && st.lowestMarks == 0
    ensures st.gradedCount > 0 ==> (st.lowestMarks <= st.highestMarks &&
      st.lowestMarks as real <= st.averageMarks <= st.highestMarks as real)
    ensures st.gradedCount > 0 ==> var ms := MarksOf(TeacherRoutes.Filter(page, HasMarks));
      && st.gradedCount == |ms|
      && st.highestMarks in ms && st.lowestMarks in ms
      && st.averageMarks == Sum(ms) as real / (st.gradedCount as real)
    ensures forall s :: s in page && HasMarks(s) ==> st.lowestMarks <= s.marksObtained.value <= st.highestMarks
  {
    var graded := TeacherRoutes.Filter(page, HasMarks);
    if |graded| == 0 then PageStatistics(total, 0, total, 0.0, 0, 0)
    else
      var ms := MarksOf(graded);
      MeanBetween(ms);
      assert forall s :: s in graded ==> MinOf(ms) <= s.marksObtained.value <= MaxOf(ms) by {
        forall s | s in graded ensures MinOf(ms) <= s.marksObtained.value <= MaxOf(ms) {
          var k :| 0 <= k < |graded| && graded[k] == s;
          assert ms[k] == s.marksObtained.value;
        }
      }
      PageStatistics(total, |graded|, total - |graded|, Mean(ms), MaxOf(ms), MinOf(ms))
  }
}

=== FILE: attendance_history.dfy ===
/** A student's attendance history: records regrouped into one summary per
    day (oldest first) and one percentage per month (ascending). */
module AttendanceHistory {
  import opened Wrappers
  import opened AttendanceModel

  /** A record as the history query returns it. `day` and `month` are the
      record date's `YYYY-MM-DD` and `YYYY-MM` keys, taken as ordered
      opaque values; `markedBy` is the marking teacher's name, if any. */
  datatype Item = Item(
    day: int,
    month: int,
    status: Status,
    subjectCode: Option<string>,
    subjectName: Option<string>,
    markedBy: Option<string>)

  /** One subject line of a day, with the handler's display defaults. */
  datatype SubjectLine = SubjectLine(subjectCode: string, subjectName: string, status: Status, markedBy: string)

  /** One day of the history. */
  datatype DayGroup = DayGroup(day: int, total: nat, present: nat, late: nat, absent: nat, subjects: seq<SubjectLine>)

  function Line(it: Item): SubjectLine {
    SubjectLine(if Truthy(it.subjectCode) then it.subjectCode.value else "General",
                if Truthy(it.subjectName) then it.subjectName.value else "N/A",
                it.status,
                if Truthy(it.markedBy) then it.markedBy.value else "Unknown")
  }

  function EmptyDay(day: int): DayGroup {
    DayGroup(day, 0, 0, 0, 0, [])
  }

  /** Counts one more record in its day. */
  function AddToDay(g: DayGroup, it: Item): DayGroup {
    g.(total := g.total + 1,
       present := g.present + (if it.status == Present then 1 else 0),
       late := g.late + (if it.status == Late then 1 else 0),
       absent := g.absent + (if it.status == Absent then 1 else 0),
       subjects := g.subjects + [Line(it)])
  }

  function FindDay(gs: seq<DayGroup>, day: int): Option<DayGroup> {
    if |gs| == 0 then None
    else if gs[0].day == day then Some(gs[0])
    else FindDay(gs[1..], day)
  }

  predicate DistinctDays(gs: seq<DayGroup>) {
    forall i, j :: 0 <= i < j < |gs| ==> gs[i].day != gs[j].day
  }

  /** Days strictly decreasing along the sequence. */
  predicate NewestFirst(gs: seq<DayGroup>) {
    forall i, j :: 0 <= i < j < |gs| ==> gs[i].day > gs[j].day
  }

  lemma {:induction false} FindDayMissing(gs: seq<DayGroup>, day: int)
    requires forall k :: 0 <= k < |gs| ==> gs[k].day != day
    ensures FindDay(gs, day).None?
    decreases |gs|
  {
    if |gs| > 0 {
      FindDayMissing(gs[1..], day);
    }
  }

  lemma {:induction false} FindDayFindsEvery(gs: seq<DayGroup>, k: nat)
    requires k < |gs|
    ensures FindDay(gs, gs[k].day).Some?
    decreases k
  {
    if k > 0 && gs[0].day != gs[k].day {
      FindDayFindsEvery(gs[1..], k - 1);
    }
  }

  /** Files one record under its day: the day's group is bumped, or a new
      group is opened at the end. Only that day's group changes. */
  function PlaceByDay(gs: seq<DayGroup>, it: Item): (r: seq<DayGroup>)
    ensures forall x :: FindDay(r, x) == (if x == it.day then Some(AddToDay(FindDay(gs, x).GetOr(EmptyDay(x)), it)) else FindDay(gs, x))
    ensures |r| >= 1 && r[0].day == (if |gs| == 0 then it.day else gs[0].day)
  {
    if |gs| == 0 then [AddToDay(EmptyDay(it.day), it)]
    else if gs[0].day == it.day then [AddToDay(gs[0], it)] + gs[1..]
    else [gs[0]] + PlaceByDay(gs[1..], it)
  }

  /** Filing a record keeps one group per day. */
  lemma {:induction false} PlaceByDayDistinct(gs: seq<DayGroup>, it: Item)
    requires DistinctDays(gs)
    ensures DistinctDays(PlaceByDay(gs, it))
    decreases |gs|
  {
    if |gs| > 0 && gs[0].day != it.day {
      var rest := PlaceByDay(gs[1..], it);
      assert DistinctDays(gs[1..]);
      PlaceByDayDistinct(gs[1..], it);
      forall m | 0 <= m < |gs[1..]| ensures gs[1..][m].day != gs[0].day {
        assert gs[1..][m] == gs[m + 1];
      }
      FindDayMissing(gs[1..], gs[0].day);
      forall k | 0 <= k < |rest| ensures rest[k].day != gs[0].day {
        FindDayFindsEvery(rest, k);
      }
    }
  }

  /** Filing a record below a bound keeps every day below that bound. */
  lemma {:induction false} PlaceByDayBelow(gs: seq<DayGroup>, it: Item, bound: int)
    requires forall k :: 0 <= k < |gs| ==> gs[k].day < bound
    requires it.day < bound
    ensures forall k :: 0 <= k < |PlaceByDay(gs, it)| ==> PlaceByDay(gs, it)[k].day < bound
    decreases |gs|
  {
    if |gs| > 0 && gs[0].day != it.day {
      assert forall k :: 0 <= k < |gs[1..]| ==> gs[1..][k].day < bound;
      PlaceByDayBelow(gs[1..], it, bound);
    }
  }

  /** When records are filed newest first, the groups stay newest first
      and the last group is the latest record's day. */
  lemma {:induction false} PlaceByDayNewestFirst(gs: seq<DayGroup>, it: Item)
    requires NewestFirst(gs) && (|gs| == 0 || it.day <= gs[|gs| - 1].day)
    ensures NewestFirst(PlaceByDay(gs, it))
    ensures var r := PlaceByDay(gs, it); r[|r| - 1].day == it.day
    decreases |gs|
  {
    if |gs| > 1 {
      assert gs[0].day > gs[|gs| - 1].day;
      var tail := gs[1..];
      assert NewestFirst(tail);
      assert tail[|tail| - 1] == gs[|gs| - 1];
      PlaceByDayNewestFirst(tail, it);
      assert forall k :: 0 <= k < |tail| ==> tail[k].day < gs[0].day by {
        forall k | 0 <= k < |tail| ensures tail[k].day < gs[0].day {
          assert tail[k] == gs[k + 1];
        }
      }
      PlaceByDayBelow(tail, it, gs[0].day);
      var rest := PlaceByDay(tail, it);
      assert PlaceByDay(gs, it) == [gs[0]] + rest;
    }
  }

  /** A day found in a sequence is the day of one of its groups. */
  lemma {:induction false} FindDayInRange(gs: seq<DayGroup>, day: int)
    requires FindDay(gs, day).Some?
    ensures exists k :: 0 <= k < |gs| && gs[k].day == day
    decreases |gs|
  {
    if gs[0].day != day {
      FindDayInRange(gs[1..], day);
      var k :| 0 <= k < |gs[1..]| && gs[1..][k].day == day;
      assert gs[k + 1].day == day;
    }
  }

  /** The handler's `forEach` filing of the records by day, in first
      appearance order. */
  function GroupByDay(items: seq<Item>): seq<DayGroup> {
    if |items| == 0 then []
    else PlaceByDay(GroupByDay(items[..|items| - 1]), items[|items| - 1])
  }

  /** Reversal of a sequence. */
  function Reverse<T>(s: seq<T>): (r: seq<T>)
    ensures |r| == |s|
    ensures forall k :: 0 <= k < |s| ==> r[k] == s[|s| - 1 - k]
  {
    if |s| == 0 then [] else Reverse(s[1..]) + [s[0]]
  }

  /** `Object.values(historyByDate).reverse()`. */
  function DailyHistory(items: seq<Item>): seq<DayGroup> {
    Reverse(GroupByDay(items))
  }

  /** The number of records on `day`, and those with status `st`. */
  function CountDay(items: seq<Item>, day: int): nat {
    if |items| == 0 then 0
    else CountDay(items[..|items| - 1], day) + (if items[|items| - 1].day == day then 1 else 0)
  }

  function CountDayStatus(items: seq<Item>, day: int, st: Status): nat {
    if |items| == 0 then 0
    else CountDayStatus(items[..|items| - 1], day, st)
         + (if items[|items| - 1].day == day && items[|items| - 1].status == st then 1 else 0)
  }

  /** The subject lines of the records on `day`, in record order. */
  function DayLines(items: seq<Item>, day: int): seq<SubjectLine> {
    if |items| == 0 then []
    else DayLines(items[..|items| - 1], day) + (if items[|items| - 1].day == day then [Line(items[|items| - 1])] else [])
  }

  /** The summary a day should have, stated by counting its records. */
  function ExpectedDay(items: seq<Item>, day: int): DayGroup {
    DayGroup(day, CountDay(items, day), CountDayStatus(items, day, Present), CountDayStatus(items, day, Late),
             CountDayStatus(items, day, Absent), DayLines(items, day))
  }

  /** A day's records split into present, late and absent ones, and the day
      lists one subject line per record. */
  lemma {:induction false} DayTotalsBalance(items: seq<Item>, day: int)
    ensures var g := ExpectedDay(items, day);
            g.total == g.present + g.late + g.absent == |g.subjects|
    decreases |items|
  {
    if |items| > 0 {
      DayTotalsBalance(items[..|items| - 1], day);
    }
  }

  /** Every day with records has exactly one group, holding its counted
      summary and its subject lines in record order; days without records
      have none. */
  lemma {:induction false} GroupByDayMatchesCounts(items: seq<Item>)
    ensures forall d :: FindDay(GroupByDay(items), d).GetOr(EmptyDay(d)) == ExpectedDay(items, d)
    ensures forall d :: FindDay(GroupByDay(items), d).Some? <==> CountDay(items, d) > 0
    ensures DistinctDays(GroupByDay(items))
    decreases |items|
  {
    if |items| > 0 {
      GroupByDayMatchesCounts(items[..|items| - 1]);
      PlaceByDayDistinct(GroupByDay(items[..|items| - 1]), items[|items| - 1]);
    }
  }

  /** Records arriving newest first. */
  predicate NewestFirstItems(items: seq<Item>) {
    forall i, j :: 0 <= i < j < |items| ==> items[i].day >= items[j].day
  }

  lemma {:induction false} GroupByDayNewestFirst(items: seq<Item>)
    requires NewestFirstItems(items)
    ensures NewestFirst(GroupByDay(items))
    ensures |items| > 0 ==> |GroupByDay(items)| > 0 && GroupByDay(items)[|GroupByDay(items)| - 1].day == items[|items| - 1].day
    decreases |items|
  {
    if |items| > 0 {
      var prefix := items[..|items| - 1];
      var last := items[|items| - 1];
      assert NewestFirstItems(prefix) by {
        forall i, j | 0 <= i < j < |prefix| ensures prefix[i].day >= prefix[j].day {
          assert prefix[i] == items[i] && prefix[j] == items[j];
        }
      }
      GroupByDayNewestFirst(prefix);
      var g := GroupByDay(prefix);
      if |prefix| > 0 {
        assert prefix[|prefix| - 1] == items[|items| - 2];
        assert items[|items| - 2].day >= last.day;
      }
      PlaceByDayNewestFirst(g, last);
      assert GroupByDay(items) == PlaceByDay(g, last);
    }
  }

  /** When the query returns records newest first, the daily history lists
      each day once, oldest first. */
  lemma DailyHistoryOldestFirst(items: seq<Item>)
    requires NewestFirstItems(items)
    ensures forall i, j :: 0 <= i < j < |DailyHistory(items)| ==> DailyHistory(items)[i].day < DailyHistory(items)[j].day
  {
    GroupByDayNewestFirst(items);
  }

  /** One month's running counts. */
  datatype MonthStat = MonthStat(month: int, attended: nat, total: nat)

  function AddToMonth(m: MonthStat, it: Item): MonthStat {
    m.(attended := m.attended + (if Attended(it.status) then 1 else 0), total := m.total + 1)
  }

  function FindMonth(ms: seq<MonthStat>, month: int): Option<MonthStat> {
    if |ms| == 0 then None
    else if ms[0].month == month then Some(ms[0])
    else FindMonth(ms[1..], month)
  }

  /** Month keys strictly ascending: `Object.keys(monthlyStats).sort()`. */
  predicate Ascending(ms: seq<MonthStat>) {
    forall i, j :: 0 <= i < j < |ms| ==> ms[i].month < ms[j].month
  }

  lemma {:induction false} FindMonthBelowFirst(ms: seq<MonthStat>, month: int)
    ensures Ascending(ms) && (|ms| == 0 || month < ms[0].month) ==> FindMonth(ms, month).None?
    decreases |ms|
  {
    if |ms| > 0 && Ascending(ms) && month < ms[0].month {
      if |ms| > 1 {
        assert ms[1..][0] == ms[1];
      }
      FindMonthBelowFirst(ms[1..], month);
    }
  }

  /** Counts a record in its month, keeping months in ascending order. Only
      that month changes. */
  function PlaceByMonth(ms: seq<MonthStat>, it: Item): (r: seq<MonthStat>)
    ensures Ascending(ms) ==> Ascending(r)
    ensures Ascending(ms) ==>
              forall x :: FindMonth(r, x) == if x == it.month then Some(AddToMonth(FindMonth(ms, x).GetOr(MonthStat(x, 0, 0)), it)) else FindMonth(ms, x)
    ensures |r| >= 1 && r[0].month == (if |ms| == 0 || it.month < ms[0].month then it.month else ms[0].month)
  {
    if |ms| == 0 then [AddToMonth(MonthStat(it.month, 0, 0), it)]
    else if ms[0].month == it.month then [AddToMonth(ms[0], it)] + ms[1..]
    else if it.month < ms[0].month then
      FindMonthBelowFirst(ms, it.month);
      [AddToMonth(MonthStat(it.month, 0, 0), it)] + ms
    else
      var rest := PlaceByMonth(ms[1..], it);
      assert Ascending(ms) ==> Ascending(ms[1..]);
      assert Ascending(ms) ==> Ascending([ms[0]] + rest) by {
        if Ascending(ms) {
          forall k | 0 <= k < |rest| ensures ms[0].month < rest[k].month {
            if k > 0 {
              assert rest[0].month < rest[k].month;
            }
          }
        }
      }
      [ms[0]] + rest
  }

  /** The monthly counts, filled record by record. */
  function MonthlyStats(items: seq<Item>): (ms: seq<MonthStat>)
    ensures Ascending(ms)
  {
    if |items| == 0 then []
    else PlaceByMonth(MonthlyStats(items[..|items| - 1]), items[|items| - 1])
  }

  function CountMonth(items: seq<Item>, month: int): nat {
    if |items| == 0 then 0
    else CountMonth(items[..|items| - 1], month) + (if items[|items| - 1].month == month then 1 else 0)
  }

  function CountMonthAttended(items: seq<Item>, month: int): nat {
    if |items| == 0 then 0
    else CountMonthAttended(items[..|items| - 1], month)
         + (if items[|items| - 1].month == month && Attended(items[|items| - 1].status) then 1 else 0)
  }

  /** Every month with records has one entry with its counted totals, and
      attended never exceeds total. */
  lemma {:induction false} MonthlyStatsMatchCounts(items: seq<Item>)
    ensures forall m :: FindMonth(MonthlyStats(items), m).GetOr(MonthStat(m, 0, 0))
                        == MonthStat(m, CountMonthAttended(items, m), CountMonth(items, m))
    ensures forall m :: FindMonth(MonthlyStats(items), m).Some? <==> CountMonth(items, m) > 0
    ensures forall m :: CountMonthAttended(items, m) <= CountMonth(items, m)
    decreases |items|
  {
    if |items| > 0 {
      MonthlyStatsMatchCounts(items[..|items| - 1]);
    }
  }

  /** `Math.round(attended / total * 100)` on the exact quotient, 0 without
      records: the integer nearest to the percentage, halves rounded up. */
  function Percentage(attended: nat, total: nat): (p: int)
    ensures total == 0 ==> p == 0
    ensures total > 0 ==> -(total as int) <= 200 * attended - 2 * p * total < total
    ensures attended <= total ==> 0 <= p <= 100
  {
    if total == 0 then 0
    else
      var p := (200 * attended + total) / (2 * total);
      PercentageBounds(attended, total, p);
      p
  }

  lemma PercentageBounds(attended: nat, total: nat, p: int)
    requires total > 0 && p == (200 * attended + total) / (2 * total)
    ensures -(total as int) <= 200 * attended - 2 * p * total < total
    ensures attended <= total ==> 0 <= p <= 100
  {
    var d := 2 * total;
    var n := 200 * attended + total;
    var r := n % d;
    assert n == d * p + r && 0 <= r < d;
    assert 200 * attended - 2 * p * total == r - total;
    if attended <= total {
      assert d * p < d * 101;
      assert d * p > -d;
    }
  }

  datatype MonthPoint = MonthPoint(month: int, percentage: int)

  /** The monthly trend: one point per month with records, months
      ascending, each percentage within 0..100. */
  function MonthlyTrend(items: seq<Item>): (pts: seq<MonthPoint>)
    ensures |pts| == |MonthlyStats(items)|
    ensures forall i, j :: 0 <= i < j < |pts| ==> pts[i].month < pts[j].month
    ensures forall k :: 0 <= k < |pts| ==>
              pts[k].month == MonthlyStats(items)[k].month
              && pts[k].percentage == Percentage(MonthlyStats(items)[k].attended, MonthlyStats(items)[k].total)
  {
    var ms := MonthlyStats(items);
    seq(|ms|, k requires 0 <= k < |ms| => MonthPoint(ms[k].month, Percentage(ms[k].attended, ms[k].total)))
  }

  /** Every month point lies in 0..100 and is the rounded share of the
      month's present-or-late records. */
  lemma MonthlyTrendInRange(items: seq<Item>)
    ensures forall k :: 0 <= k < |MonthlyTrend(items)| ==>
              var m := MonthlyTrend(items)[k].month;
              && 0 <= MonthlyTrend(items)[k].percentage <= 100
              && MonthlyTrend(items)[k].percentage == Percentage(CountMonthAttended(items, m), CountMonth(items, m))
  {
    var ms := MonthlyStats(items);
    MonthlyStatsMatchCounts(items);
    forall k | 0 <= k < |ms|
      ensures ms[k] == MonthStat(ms[k].month, CountMonthAttended(items, ms[k].month), CountMonth(items, ms[k].month))
    {
      FindMonthFirst(ms, k);
    }
  }

  /** In ascending month stats, a month is found at its own position. */
  lemma {:induction false} FindMonthFirst(ms: seq<MonthStat>, k: nat)
    requires Ascending(ms) && k < |ms|
    ensures FindMonth(ms, ms[k].month) == Some(ms[k])
    decreases k
  {
    if k > 0 {
      assert ms[0].month < ms[k].month;
      assert ms[1..][k - 1] == ms[k];
      FindMonthFirst(ms[1..], k - 1);
    }
  }
}

=== FILE: attendance_model.dfy ===
/** The attendance audit record: its shape, the setters applied when it is
    stored, the midnight normalisation of its date, and the partial unique
    key on (student, date, subjectCode). */
module AttendanceModel {
  import opened Wrappers
  import Text
  import opened StudentModel

  datatype Status = Present | Absent | Late

  function StatusName(st: Status): string {
    match st
    case Present => "present"
    case Absent => "absent"
    case Late => "late"
  }

  /** `['present', 'absent', 'late'].includes(s)`, returning the status. */
  function ParseStatus(s: string): (r: Option<Status>)
    ensures r.Some? ==> StatusName(r.value) == s
    ensures forall st :: StatusName(st) == s ==> r == Some(st)
  {
    if s == "present" then Some(Present)
    else if s == "absent" then Some(Absent)
    else if s == "late" then Some(Late)
    else None
  }

  /** Present and late both count as attended. */
  predicate Attended(st: Status) {
    st == Present || st == Late
  }

  /** One attendance record. `student`, `date`, `status` and `createdBy` are
      required by the schema; the subject fields are optional. */
  datatype Record = Record(
    student: Id,
    date: Time,
    status: Status,
    subjectCode: Option<string>,
    subjectName: Option<string>,
    createdBy: Id)

  /** Milliseconds in a day. */
  const DayMs: nat := 86_400_000

  /** `setHours(0, 0, 0, 0)`: the start of the day `t` falls in (time zones
      are not modelled). The result is the unique day boundary at or before
      `t` and less than a day before it. */
  function Midnight(t: Time): (m: Time)
    ensures m % DayMs == 0
    ensures m <= t < m + DayMs
  {
    t - t % DayMs
  }

  /** Any day boundary within a day at or before `t` is `Midnight(t)`. */
  lemma MidnightUnique(t: Time, m: Time)
    requires m % DayMs == 0 && m <= t < m + DayMs
    ensures Midnight(t) == m
  {
    var n := Midnight(t);
    assert (m - n) % DayMs == 0 by {
      assert m == (m / DayMs) * DayMs && n == (n / DayMs) * DayMs;
      assert m - n == (m / DayMs - n / DayMs) * DayMs;
    }
  }

  /** Normalising a date twice is the same as normalising it once, so the
      save hook leaves an already normalised date alone. */
  lemma MidnightIdempotent(t: Time)
    ensures Midnight(Midnight(t)) == Midnight(t)
  {
    MidnightUnique(Midnight(t), Midnight(t));
  }

  /** The stored form of a subject code: trimmed, then upper-cased. */
  function StoreCode(code: Option<string>): (r: Option<string>)
    ensures r.None? <==> code.None?
  {
    match code
    case None => None
    case Some(c) => Some(Text.Upper(Text.Trim(c)))
  }

  /** The stored form of a record: the schema setters trim and upper-case
      the subject code and trim the subject name. */
  function Stored(r: Record): (s: Record)
    ensures s.student == r.student && s.date == r.date && s.status == r.status && s.createdBy == r.createdBy
    ensures s.subjectCode.None? <==> r.subjectCode.None?
  {
    r.(subjectCode := StoreCode(r.subjectCode),
       subjectName := match r.subjectName case None => None case Some(n) => Some(Text.Trim(n)))
  }

  /** Storing an already stored record changes nothing. */
  lemma StoredIdempotent(r: Record)
    ensures Stored(Stored(r)) == Stored(r)
  {
    if r.subjectCode.Some? {
      var t := Text.Trim(r.subjectCode.value);
      Text.TrimIdempotent(r.subjectCode.value);
      Text.TrimUpperCommute(t);
      Text.UpperIdempotent(t);
    }
    if r.subjectName.Some? {
      Text.TrimIdempotent(r.subjectName.value);
    }
  }

  /** Two records collide under the partial unique index: both have a
      subject code (the index only covers those) and they agree on student,
      date and code. */
  predicate KeyClash(a: Record, b: Record) {
    && a.subjectCode.Some? && b.subjectCode.Some?
    && a.student == b.student && a.date == b.date && a.subjectCode == b.subjectCode
  }

  /** No two records collide under the unique index. */
  predicate UniqueKeys(rs: seq<Record>) {
    forall i, j :: 0 <= i < j < |rs| ==> !KeyClash(rs[i], rs[j])
  }

  /** A record with no subject code never collides, so any number of them
      may exist for the same student and day: the whole-day index is off. */
  lemma NoCodeUnconstrained(rs: seq<Record>, r: Record)
    requires UniqueKeys(rs) && r.subjectCode.None?
    ensures UniqueKeys(rs + [r])
    ensures UniqueKeys(rs + [r, r])
  {
  }

  /** Two records for the same student and day whose codes differ only in
      letter case or surrounding blanks collide once stored. */
  lemma CaseVariantsCollide(a: Record, b: Record)
    requires a.student == b.student && a.date == b.date
    requires a.subjectCode.Some? && b.subjectCode.Some?
    requires Text.SameIgnoringCase(Text.Trim(a.subjectCode.value), Text.Trim(b.subjectCode.value))
    ensures KeyClash(Stored(a), Stored(b))
  {
    Text.UpperEqualIff(Text.Trim(a.subjectCode.value), Text.Trim(b.subjectCode.value));
  }

  function StoredAll(rs: seq<Record>): (out: seq<Record>)
    ensures |out| == |rs|
    ensures forall k :: 0 <= k < |rs| ==> out[k] == Stored(rs[k])
  {
    seq(|rs|, k requires 0 <= k < |rs| => Stored(rs[k]))
  }

  /** Some incoming record collides with an existing record or with
      another incoming record. */
  predicate BatchClashes(existing: seq<Record>, incoming: seq<Record>) {
    || (exists i, j :: 0 <= i < |existing| && 0 <= j < |incoming| && KeyClash(existing[i], incoming[j]))
    || (exists i, j :: 0 <= i < j < |incoming| && KeyClash(incoming[i], incoming[j]))
  }

  /** A clash in the combined records is a clash of the incoming ones. */
  lemma ClashInAppendIsBatchClash(existing: seq<Record>, incoming: seq<Record>)
    requires UniqueKeys(existing)
    requires !UniqueKeys(existing + incoming)
    ensures BatchClashes(existing, incoming)
  {
    var all := existing + incoming;
    var n := |existing|;
    var i, j :| 0 <= i < j < |all| && KeyClash(all[i], all[j]);
    assert j >= n;
    assert all[j] == incoming[j - n];
    if i < n {
      assert all[i] == existing[i];
    } else {
      assert all[i] == incoming[i - n];
    }
  }

  /** A clash of the incoming records is a clash in the combined records. */
  lemma BatchClashInAppend(existing: seq<Record>, incoming: seq<Record>)
    requires BatchClashes(existing, incoming)
    ensures !UniqueKeys(existing + incoming)
  {
    var all := existing + incoming;
    var n := |existing|;
    if exists i, j :: 0 <= i < n && 0 <= j < |incoming| && KeyClash(existing[i], incoming[j]) {
      var i, j :| 0 <= i < n && 0 <= j < |incoming| && KeyClash(existing[i], incoming[j]);
      assert all[i] == existing[i] && all[n + j] == incoming[j];
    } else {
      var i, j :| 0 <= i < j < |incoming| && KeyClash(incoming[i], incoming[j]);
      assert all[n + i] == incoming[i] && all[n + j] == incoming[j];
    }
  }

  /** Appending records to clash-free ones keeps them clash-free exactly
      when the incoming records clash with nothing. */
  lemma AppendUniqueIff(existing: seq<Record>, incoming: seq<Record>)
    ensures UniqueKeys(existing) ==> (UniqueKeys(existing + incoming) <==> !BatchClashes(existing, incoming))
  {
    if UniqueKeys(existing) && !UniqueKeys(existing + incoming) {
      ClashInAppendIsBatchClash(existing, incoming);
    }
    if BatchClashes(existing, incoming) {
      BatchClashInAppend(existing, incoming);
    }
  }

  /** `insertMany` into the collection. It succeeds exactly when the stored
      batch collides neither with an existing record nor within itself, and
      then the collection is the old records followed by the stored batch,
      still clash-free; otherwise the duplicate-key error is a 500 (the
      collection's own records never clash, since the index guards them). */
  function InsertMany(existing: seq<Record>, batch: seq<Record>): (r: Result<seq<Record>, HttpError>)
    ensures r.Success? ==> r.value == existing + StoredAll(batch) && UniqueKeys(r.value)
    ensures UniqueKeys(existing) ==> (r.Failure? <==> BatchClashes(existing, StoredAll(batch)))
    ensures r.Failure? ==> r.error == ServerError
  {
    var incoming := StoredAll(batch);
    AppendUniqueIff(existing, incoming);
    if UniqueKeys(existing + incoming) then Success(existing + incoming) else Failure(ServerError)
  }
}

=== FILE: attendance_upload.dfy ===
/** The attendance batch upload: validate every entry, group the entries
    per student into five counters, then apply all increments and insert
    one audit record per entry, all or nothing. */
module AttendanceUpload {
  import opened Wrappers
  import opened StudentModel
  import opened AttendanceModel

  /** One entry of the request body. `date` is `None` when absent or falsy. */
  datatype Entry = Entry(
    studentId: Option<Id>,
    status: Option<string>,
    subjectCode: Option<string>,
    subjectName: Option<string>,
    date: Option<Time>)

  /** An entry names a student and one of the three statuses. */
  predicate ValidEntry(e: Entry) {
    Truthy(e.studentId) && e.status.Some? && ParseStatus(e.status.value).Some?
  }

  predicate AllValid(es: seq<Entry>) {
    forall k :: 0 <= k < |es| ==> ValidEntry(es[k])
  }

  function StatusOf(e: Entry): Status
    requires ValidEntry(e)
  {
    ParseStatus(e.status.value).value
  }

  /** The five per-student counters of one batch. */
  datatype Increment = Increment(attended: nat, total: nat, present: nat, late: nat, absent: nat)

  const Zero := Increment(0, 0, 0, 0, 0)

  /** One more entry with status `st`. */
  function Add(inc: Increment, st: Status): Increment {
    Increment(inc.attended + (if Attended(st) then 1 else 0),
              inc.total + 1,
              inc.present + (if st == Present then 1 else 0),
              inc.late + (if st == Late then 1 else 0),
              inc.absent + (if st == Absent then 1 else 0))
  }

  /** The grouped increments, in the order students first appear (the key
      order of the handler's `studentUpdates` object). */
  type Updates = seq<(Id, Increment)>

  function Lookup(us: Updates, id: Id): Option<Increment> {
    if |us| == 0 then None
    else if us[0].0 == id then Some(us[0].1)
    else Lookup(us[1..], id)
  }

  predicate DistinctIds(us: Updates) {
    forall i, j :: 0 <= i < j < |us| ==> us[i].0 != us[j].0
  }

  function SumTotals(us: Updates): nat {
    if |us| == 0 then 0 else us[0].1.total + SumTotals(us[1..])
  }

  /** Counts one entry for `id`: bumps its group, or opens a new group at
      the end. Only `id`'s group changes, the ids stay distinct, and the
      grand total grows by one. */
  function Bump(us: Updates, id: Id, st: Status): (r: Updates)
    ensures forall x :: Lookup(r, x) == (if x == id then Some(Add(Lookup(us, id).GetOr(Zero), st)) else Lookup(us, x))
    ensures DistinctIds(us) ==> DistinctIds(r)
    ensures SumTotals(r) == SumTotals(us) + 1
    ensures |r| >= 1 && r[0].0 == (if |us| == 0 then id else us[0].0)
  {
    if |us| == 0 then [(id, Add(Zero, st))]
    else if us[0].0 == id then [(id, Add(us[0].1, st))] + us[1..]
    else
      var rest := Bump(us[1..], id, st);
      assert DistinctIds(us) ==> forall k :: 0 <= k < |rest| ==> rest[k].0 != us[0].0 by {
        if DistinctIds(us) {
          forall k | 0 <= k < |rest| ensures rest[k].0 != us[0].0 {
            assert Lookup(rest, rest[k].0).Some? by { LookupFindsEveryKey(rest, k); }
            if rest[k].0 == us[0].0 {
              LookupMissing(us[1..], us[0].0);
            }
          }
        }
      }
      [us[0]] + rest
  }

  lemma {:induction false} LookupFindsEveryKey(us: Updates, k: nat)
    requires k < |us|
    ensures Lookup(us, us[k].0).Some?
    decreases k
  {
    if k > 0 && us[0].0 != us[k].0 {
      LookupFindsEveryKey(us[1..], k - 1);
    }
  }

  lemma {:induction false} LookupMissing(us: Updates, id: Id)
    requires forall k :: 0 <= k < |us| ==> us[k].0 != id
    ensures Lookup(us, id).None?
    decreases |us|
  {
    if |us| > 0 {
      LookupMissing(us[1..], id);
    }
  }

  /** The handler's grouping loop over the (all valid) entries. */
  function Tally(es: seq<Entry>): Updates
    requires AllValid(es)
  {
    if |es| == 0 then []
    else
      var e := es[|es| - 1];
      Bump(Tally(es[..|es| - 1]), e.studentId.value, StatusOf(e))
  }

  /** Number of entries for `id`. */
  function EntriesOf(es: seq<Entry>, id: Id): nat
    requires AllValid(es)
  {
    if |es| == 0 then 0
    else EntriesOf(es[..|es| - 1], id) + (if es[|es| - 1].studentId.value == id then 1 else 0)
  }

  /** Number of entries for `id` with status `st`. */
  function EntriesWith(es: seq<Entry>, id: Id, st: Status): nat
    requires AllValid(es)
  {
    if |es| == 0 then 0
    else EntriesWith(es[..|es| - 1], id, st)
         + (if es[|es| - 1].studentId.value == id && StatusOf(es[|es| - 1]) == st then 1 else 0)
  }

  /** The increment a student should receive, stated by counting: one per
      entry, attended for the present and late ones, and one counter per
      status. */
  function Expected(es: seq<Entry>, id: Id): Increment
    requires AllValid(es)
  {
    Increment(EntriesWith(es, id, Present) + EntriesWith(es, id, Late),
              EntriesOf(es, id),
              EntriesWith(es, id, Present),
              EntriesWith(es, id, Late),
              EntriesWith(es, id, Absent))
  }

  /** Each student's entries split into present, late and absent ones, so
      attended never exceeds total. */
  lemma {:induction false} StatusesPartitionEntries(es: seq<Entry>, id: Id)
    requires AllValid(es)
    ensures EntriesOf(es, id) == EntriesWith(es, id, Present) + EntriesWith(es, id, Late) + EntriesWith(es, id, Absent)
    ensures Expected(es, id).attended <= Expected(es, id).total
    decreases |es|
  {
    if |es| > 0 {
      StatusesPartitionEntries(es[..|es| - 1], id);
    }
  }

  lemma {:induction false} AllValidPrefix(es: seq<Entry>, n: nat)
    requires AllValid(es) && n <= |es|
    ensures AllValid(es[..n])
  {
  }

  /** The grouping gives every student exactly the counted increment, opens
      a group exactly for the students that have entries, keeps one group
      per student, and its totals add up to the number of entries. */
  lemma {:induction false} TallyMatchesCounts(es: seq<Entry>)
    requires AllValid(es)
    ensures forall id :: Lookup(Tally(es), id).GetOr(Zero) == Expected(es, id)
    ensures forall id :: Lookup(Tally(es), id).Some? <==> EntriesOf(es, id) > 0
    ensures DistinctIds(Tally(es))
    ensures SumTotals(Tally(es)) == |es|
    decreases |es|
  {
    if |es| > 0 {
      var prefix := es[..|es| - 1];
      AllValidPrefix(es, |es| - 1);
      TallyMatchesCounts(prefix);
    }
  }

  /** The stored counters after one increment. */
  function AddCounters(s: Student, inc: Increment): Student {
    s.(totalClasses := s.totalClasses + inc.total,
       attendedClasses := s.attendedClasses + inc.attended,
       presentCount := s.presentCount + inc.present,
       lateCount := s.lateCount + inc.late,
       absentCount := s.absentCount + inc.absent)
  }

  /** The `bulkWrite` of `$inc` updates. An update for an id with no
      student matches nothing and is a no-op. */
  function ApplyIncrements(store: map<Id, Student>, us: Updates): (r: map<Id, Student>)
    ensures r.Keys == store.Keys
  {
    if |us| == 0 then store
    else
      var (id, inc) := us[0];
      var next := if id in store then store[id := AddCounters(store[id], inc)] else store;
      ApplyIncrements(next, us[1..])
  }

  /** With one update per student, every student receives exactly its own
      increment, and students without an update are untouched. */
  lemma {:induction false} ApplyIncrementsEffect(store: map<Id, Student>, us: Updates)
    requires DistinctIds(us)
    ensures forall id :: id in store ==> ApplyIncrements(store, us)[id] == AddCounters(store[id], Lookup(us, id).GetOr(Zero))
    decreases |us|
  {
    if |us| > 0 {
      var (id0, inc) := us[0];
      var next := if id0 in store then store[id0 := AddCounters(store[id0], inc)] else store;
      assert DistinctIds(us[1..]);
      ApplyIncrementsEffect(next, us[1..]);
      forall k | 0 <= k < |us[1..]| ensures us[1..][k].0 != id0 {
        assert us[1..][k] == us[k + 1];
      }
      LookupMissing(us[1..], id0);
      forall id | id in store
        ensures ApplyIncrements(store, us)[id] == AddCounters(store[id], Lookup(us, id).GetOr(Zero))
      {
        if id != id0 {
          assert next[id] == store[id];
        }
      }
    }
  }

  /** The audit date of an entry: its own date or today, at midnight. */
  function MarkDate(e: Entry, today: Time): Time {
    if e.date.Some? then Midnight(e.date.value) else today
  }

  /** One audit record per entry, in entry order; an absent or empty
      subject code or name is stored as null. */
  function AuditRecords(es: seq<Entry>, teacher: Id, today: Time): (rs: seq<Record>)
    requires AllValid(es)
    ensures |rs| == |es|
    ensures forall k :: 0 <= k < |es| ==>
              && rs[k].student == es[k].studentId.value
              && StatusName(rs[k].status) == es[k].status.value
              && rs[k].subjectCode == (if Truthy(es[k].subjectCode) then es[k].subjectCode else None)
              && rs[k].subjectName == (if Truthy(es[k].subjectName) then es[k].subjectName else None)
              && rs[k].date == MarkDate(es[k], today)
              && rs[k].createdBy == teacher
  {
    seq(|es|, k requires 0 <= k < |es| =>
      var e := es[k];
      Record(e.studentId.value, MarkDate(e, today), StatusOf(e),
             if Truthy(e.subjectCode) then e.subjectCode else None,
             if Truthy(e.subjectName) then e.subjectName else None,
             teacher))
  }

  /** What a successful upload leaves behind and answers. */
  datatype Outcome = Outcome(store: map<Id, Student>, records: seq<Record>, markedCount: nat, date: Time)

  /** `POST /upload`. `body` is `None` when the request body is not an
      array; `now` is the clock. Any invalid entry rejects the batch before
      anything is written; a duplicate audit key aborts the transaction, so
      neither the counters nor the records change. On success every student
      gains exactly the counted increment of its entries, and one audit
      record per entry is appended. */
  function Upload(store: map<Id, Student>, records: seq<Record>, body: Option<seq<Entry>>,
                  teacher: Id, now: Time): (r: Result<Outcome, HttpError>)
    ensures r == Failure(BadRequest) <==> body.None? || |body.value| == 0 || !AllValid(body.value)
    ensures body.Some? && |body.value| > 0 && AllValid(body.value) && UniqueKeys(records) ==>
              (r.Success? <==> !BatchClashes(records, StoredAll(AuditRecords(body.value, teacher, Midnight(now)))))
    ensures r.Failure? && r.error != BadRequest ==>
              && body.Some? && AllValid(body.value)
              && r.error == ServerError
              && (UniqueKeys(records) ==> BatchClashes(records, StoredAll(AuditRecords(body.value, teacher, Midnight(now)))))
    ensures r.Success? ==>
              && body.Some? && |body.value| > 0 && AllValid(body.value)
              && var es := body.value;
              && r.value.markedCount == |es|
              && r.value.date == Midnight(now)
              && r.value.records == records + StoredAll(AuditRecords(es, teacher, Midnight(now)))
              && UniqueKeys(r.value.records)
              && r.value.store.Keys == store.Keys
              && (forall id :: id in store ==> r.value.store[id] == AddCounters(store[id], Expected(es, id)))
  {
    if body.None? || |body.value| == 0 then Failure(BadRequest)
    else if !AllValid(body.value) then Failure(BadRequest)
    else
      var es := body.value;
      var today := Midnight(now);
      var us := Tally(es);
      TallyMatchesCounts(es);
      ApplyIncrementsEffect(store, us);
      var counters := ApplyIncrements(store, us);
      match InsertMany(records, AuditRecords(es, teacher, today))
      case Failure(e) => Failure(e)
      case Success(rs) => Success(Outcome(counters, rs, |es|, today))
  }

  /** The increments handed to `bulkWrite` add up to the number of entries,
      which is the reported `markedCount`, one group per student. */
  lemma MarkedCountIsSumOfTotals(store: map<Id, Student>, records: seq<Record>, es: seq<Entry>, teacher: Id, now: Time)
    requires Upload(store, records, Some(es), teacher, now).Success?
    ensures AllValid(es)
    ensures SumTotals(Tally(es)) == Upload(store, records, Some(es), teacher, now).value.markedCount
    ensures DistinctIds(Tally(es))
  {
    TallyMatchesCounts(es);
  }

  /** A successful upload keeps attended within total for every student. */
  lemma UploadKeepsAttendedWithinTotal(store: map<Id, Student>, records: seq<Record>, es: seq<Entry>, teacher: Id, now: Time)
    requires Upload(store, records, Some(es), teacher, now).Success?
    requires forall id :: id in store ==> AttendedWithinTotal(store[id])
    ensures forall id :: id in Upload(store, records, Some(es), teacher, now).value.store ==>
              AttendedWithinTotal(Upload(store, records, Some(es), teacher, now).value.store[id])
  {
    forall id | id in store {
      StatusesPartitionEntries(es, id);
    }
  }
}

=== FILE: grades.dfy ===
/** The fixed grade-to-points table of the student schema. */
module Grades {
  import opened Wrappers

  /** The eight grade values of the schema's `grade` enum, best first. */
  datatype Grade = O | APlus | A | BPlus | B | C | F | Ab

  /** The grade's spelling in stored documents and requests. */
  function Name(g: Grade): string {
    match g
    case O => "O"
    case APlus => "A+"
    case A => "A"
    case BPlus => "B+"
    case B => "B"
    case C => "C"
    case F => "F"
    case Ab => "Ab"
  }

  /** Reads a grade spelling; `None` for anything outside the enum. */
  function Parse(s: string): (r: Option<Grade>)
    ensures r.Some? ==> Name(r.value) == s
    ensures forall g :: Name(g) == s ==> r == Some(g)
  {
    if s == "O" then Some(O)
    else if s == "A+" then Some(APlus)
    else if s == "A" then Some(A)
    else if s == "B+" then Some(BPlus)
    else if s == "B" then Some(B)
    else if s == "C" then Some(C)
    else if s == "F" then Some(F)
    else if s == "Ab" then Some(Ab)
    else None
  }

  /** Position in the enum, 0 for the best grade. */
  function Rank(g: Grade): nat {
    match g
    case O => 0
    case APlus => 1
    case A => 2
    case BPlus => 3
    case B => 4
    case C => 5
    case F => 6
    case Ab => 7
  }

  /** A failing grade: the two that count as a backlog. */
  predicate IsBacklog(g: Grade) {
    g == F || g == Ab
  }

  /** The points a grade is worth. Every grade is worth between 0 and 10
      points, and exactly the backlog grades are worth nothing. */
  function Points(g: Grade): (p: nat)
    ensures p <= 10
    ensures p == 0 <==> IsBacklog(g)
  {
    match g
    case O => 10
    case APlus => 9
    case A => 8
    case BPlus => 7
    case B => 6
    case C => 5
    case F => 0
    case Ab => 0
  }

  /** Every grade spelling reads back as the grade it spells, and no two
      grades share a spelling. */
  lemma NameRoundTrip(g: Grade, h: Grade)
    ensures Parse(Name(g)) == Some(g)
    ensures Name(g) == Name(h) ==> g == h
  {
  }

  /** The table, entry by entry, read through the grade spellings. */
  lemma PointsTable()
    ensures Parse("O").Some? && Points(Parse("O").value) == 10
    ensures Parse("A+").Some? && Points(Parse("A+").value) == 9
    ensures Parse("A").Some? && Points(Parse("A").value) == 8
    ensures Parse("B+").Some? && Points(Parse("B+").value) == 7
    ensures Parse("B").Some? && Points(Parse("B").value) == 6
    ensures Parse("C").Some? && Points(Parse("C").value) == 5
    ensures Parse("F").Some? && Points(Parse("F").value) == 0
    ensures Parse("Ab").Some? && Points(Parse("Ab").value) == 0
  {
  }

  /** Along O, A+, A, B+, B, C the points strictly decrease. */
  lemma PointsStrictlyDecreasing(g: Grade, h: Grade)
    requires !IsBacklog(g) && !IsBacklog(h)
    requires Rank(g) < Rank(h)
    ensures Points(g) > Points(h)
  {
  }

  /** The points of an optional grade spelling as the upload handler looks
      them up: the table entry when the spelling is a known grade, and 0
      when the grade is absent, empty or unknown. */
  function LookupPoints(grade: Option<string>): (p: nat)
    ensures p <= 10
    ensures p > 0 ==> grade.Some? && Parse(grade.value).Some? && !IsBacklog(Parse(grade.value).value)
    ensures grade.Some? && Parse(grade.value).Some? ==> p == Points(Parse(grade.value).value)
  {
    match grade
    case None => 0
    case Some(s) =>
      match Parse(s)
      case None => 0
      case Some(g) => Points(g)
  }

  /** `['F', 'Ab'].includes(grade)`: the stored spelling names a backlog grade. */
  predicate IsBacklogName(grade: Option<string>) {
    grade == Some("F") || grade == Some("Ab")
  }

  /** A backlog spelling is exactly a parsed backlog grade. */
  lemma BacklogNameIff(grade: Option<string>)
    ensures IsBacklogName(grade) <==> grade.Some? && Parse(grade.value).Some? && IsBacklog(Parse(grade.value).value)
  {
  }
}

=== FILE: marks.dfy ===
/** The semester-result upload: each subject's grade points come from the
    grade table, the subject list folds into credits, backlogs and SGPA, and
    the result replaces the student's record for that semester. */
module Marks {
  import opened Wrappers
  import Grades
  import opened StudentModel
  import Ratios

  /** One subject as it arrives in the request body. `credits` and `marks`
      are `None` when the value is not a number; the strings are `None`
      when absent. */
  datatype SubjectInput = SubjectInput(
    subjectName: Option<string>,
    subjectCode: Option<string>,
    credits: Option<int>,
    grade: Option<string>,
    marks: Option<int>)

  /** The request body: `subjects` is `None` when it is not an array. */
  datatype UploadRequest = UploadRequest(
    rollNo: Option<string>,
    semester: Option<int>,
    subjects: Option<seq<SubjectInput>>)

  /** What the handler answers on success (besides the saved student). */
  datatype UploadReply = UploadReply(student: Student, semester: int, sgpa: real, backlogsThisSem: int)

  /** The request-level check: roll number, a non-zero semester and a
      non-empty subject array. */
  predicate RequestComplete(req: UploadRequest) {
    && Truthy(req.rollNo)
    && req.semester.Some? && req.semester.value != 0
    && req.subjects.Some? && |req.subjects.value| > 0
  }

  /** The per-subject check: name, code and numeric credits. */
  predicate WellFormed(si: SubjectInput) {
    Truthy(si.subjectName) && Truthy(si.subjectCode) && si.credits.Some?
  }

  predicate AllWellFormed(sis: seq<SubjectInput>) {
    forall k :: 0 <= k < |sis| ==> WellFormed(sis[k])
  }

  /** The stored form of a well-formed subject: a falsy grade becomes
      absent, and the grade points are the table lookup of the grade (0 when
      it is absent or unknown). */
  function Process(si: SubjectInput): (s: Subject)
    requires WellFormed(si)
    ensures s.subjectName == si.subjectName.value && s.subjectCode == si.subjectCode.value
    ensures s.credits == si.credits.value && s.marks == si.marks
    ensures s.gradePoints == Grades.LookupPoints(si.grade)
    ensures 0 <= s.gradePoints <= 10
    ensures s.grade.Some? ==> s.grade == si.grade && s.grade.value != ""
  {
    var grade := if Truthy(si.grade) then si.grade else None;
    Subject(si.subjectName.value, si.subjectCode.value, si.credits.value, grade,
            Grades.LookupPoints(grade), si.marks)
  }

  /** The processed subjects, one per input subject, in input order. */
  function ProcessAll(sis: seq<SubjectInput>): (subs: seq<Subject>)
    requires AllWellFormed(sis)
    ensures |subs| == |sis|
    ensures forall k :: 0 <= k < |sis| ==> subs[k] == Process(sis[k])
  {
    seq(|sis|, k requires 0 <= k < |sis| => Process(sis[k]))
  }

  /** Sum of credits. */
  function TotalCredits(subs: seq<Subject>): int {
    if |subs| == 0 then 0 else TotalCredits(subs[..|subs| - 1]) + subs[|subs| - 1].credits
  }

  /** Sum of grade points times credits. */
  function WeightedPoints(subs: seq<Subject>): int {
    if |subs| == 0 then 0
    else WeightedPoints(subs[..|subs| - 1]) + subs[|subs| - 1].gradePoints * subs[|subs| - 1].credits
  }

  /** Sum of the credits of subjects worth more than 0 points. */
  function EarnedCredits(subs: seq<Subject>): int {
    if |subs| == 0 then 0
    else EarnedCredits(subs[..|subs| - 1]) + (if subs[|subs| - 1].gradePoints > 0 then subs[|subs| - 1].credits else 0)
  }

  /** Number of subjects graded F or Ab; never more than the subjects. */
  function Backlogs(subs: seq<Subject>): (n: nat)
    ensures n <= |subs|
  {
    if |subs| == 0 then 0
    else Backlogs(subs[..|subs| - 1]) + (if Grades.IsBacklogName(subs[|subs| - 1].grade) then 1 else 0)
  }

  /** Credit-weighted mean of the grade points, 0 without credits. */
  function Sgpa(subs: seq<Subject>): real {
    var total := TotalCredits(subs);
    if total > 0 then WeightedPoints(subs) as real / total as real else 0.0
  }

  predicate NonNegativeCredits(subs: seq<Subject>) {
    forall k :: 0 <= k < |subs| ==> subs[k].credits >= 0
  }

  predicate PointsInRange(subs: seq<Subject>) {
    forall k :: 0 <= k < |subs| ==> 0 <= subs[k].gradePoints <= 10
  }

  /** With non-negative credits, earned credits never exceed total credits. */
  lemma {:induction false} EarnedWithinTotal(subs: seq<Subject>)
    requires NonNegativeCredits(subs)
    ensures 0 <= EarnedCredits(subs) <= TotalCredits(subs)
    decreases |subs|
  {
    if |subs| > 0 {
      EarnedWithinTotal(subs[..|subs| - 1]);
    }
  }

  /** With non-negative credits and points in 0..10, the weighted points
      lie between 0 and ten times the credits. */
  lemma {:induction false} WeightedWithinBounds(subs: seq<Subject>)
    requires NonNegativeCredits(subs) && PointsInRange(subs)
    ensures 0 <= WeightedPoints(subs) <= 10 * TotalCredits(subs)
    ensures 0 <= TotalCredits(subs)
    decreases |subs|
  {
    if |subs| > 0 {
      var last := subs[|subs| - 1];
      WeightedWithinBounds(subs[..|subs| - 1]);
      assert 0 <= last.gradePoints * last.credits <= 10 * last.credits by {
        assert 0 <= last.gradePoints <= 10 && last.credits >= 0;
      }
    }
  }

  /** With non-negative credits the SGPA lies in [0, 10], so the schema's
      `sgpa` bounds never reject it. */
  lemma SgpaInRange(subs: seq<Subject>)
    requires NonNegativeCredits(subs) && PointsInRange(subs)
    ensures 0.0 <= Sgpa(subs) <= 10.0
  {
    WeightedWithinBounds(subs);
    if TotalCredits(subs) > 0 {
      Ratios.RatioBetween(WeightedPoints(subs), TotalCredits(subs), 0, 10);
    }
  }

  /** The semester result the handler pushes. */
  function BuildRecord(semester: int, subs: seq<Subject>): SemesterRecord {
    SemesterRecord(semester, subs, Sgpa(subs), TotalCredits(subs), EarnedCredits(subs), Backlogs(subs))
  }

  /** `academics.filter(a => a.semester !== semester)`: exactly the records
      of other semesters survive. */
  function WithoutSemester(acs: seq<SemesterRecord>, semester: int): (r: seq<SemesterRecord>)
    ensures |r| <= |acs|
    ensures forall k :: 0 <= k < |r| ==> r[k].semester != semester
    ensures forall x :: x in r <==> x in acs && x.semester != semester
  {
    if |acs| == 0 then []
    else if acs[0].semester == semester then WithoutSemester(acs[1..], semester)
    else [acs[0]] + WithoutSemester(acs[1..], semester)
  }

  /** Filtering out a semester that no record has changes nothing. */
  lemma {:induction false} WithoutAbsentSemester(acs: seq<SemesterRecord>, semester: int)
    requires forall k :: 0 <= k < |acs| ==> acs[k].semester != semester
    ensures WithoutSemester(acs, semester) == acs
    decreases |acs|
  {
    if |acs| > 0 {
      WithoutAbsentSemester(acs[1..], semester);
    }
  }

  lemma WithoutPresentSemester(acs: seq<SemesterRecord>, k: nat)
    requires UniqueSemesters(acs) && k < |acs|
    ensures WithoutSemester(acs, acs[k].semester) == acs[..k] + acs[k + 1..]
  {
    var sem := acs[k].semester;
    var pre, post := acs[..k], acs[k + 1..];
    var mid := [acs[k]] + post;
    NeighboursKept(acs, k);
    WithoutOwnSemester(acs[k]);
    WithoutAppend([acs[k]], post, sem);
    assert WithoutSemester(mid, sem) == post;
    WithoutAppend(pre, mid, sem);
    SplitAround(acs, k);
  }

  /** A sequence is its part before `k`, its element `k`, and the rest. */
  lemma SplitAround<T>(s: seq<T>, k: nat)
    requires k < |s|
    ensures s == s[..k] + ([s[k]] + s[k + 1..])
  {
  }

  /** A record is filtered out by its own semester. */
  lemma WithoutOwnSemester(x: SemesterRecord)
    ensures WithoutSemester([x], x.semester) == []
  {
    assert [x][1..] == [];
  }

  /** With unique semesters, the records before and after record `k` have
      other semesters and survive filtering out record `k`'s. */
  lemma NeighboursKept(acs: seq<SemesterRecord>, k: nat)
    requires UniqueSemesters(acs) && k < |acs|
    ensures WithoutSemester(acs[..k], acs[k].semester) == acs[..k]
    ensures WithoutSemester(acs[k + 1..], acs[k].semester) == acs[k + 1..]
  {
    var sem := acs[k].semester;
    var pre, post := acs[..k], acs[k + 1..];
    forall j | 0 <= j < |pre| ensures pre[j].semester != sem {
      assert pre[j] == acs[j];
    }
    forall j | 0 <= j < |post| ensures post[j].semester != sem {
      assert post[j] == acs[k + 1 + j];
    }
    WithoutAbsentSemester(pre, sem);
    WithoutAbsentSemester(post, sem);
  }

  /** Filtering keeps the semesters of the kept records unique. */
  lemma {:induction false} WithoutKeepsUnique(acs: seq<SemesterRecord>, semester: int)
    ensures UniqueSemesters(acs) ==> UniqueSemesters(WithoutSemester(acs, semester))
    decreases |acs|
  {
    if |acs| > 0 && UniqueSemesters(acs) {
      var rest := WithoutSemester(acs[1..], semester);
      WithoutKeepsUnique(acs[1..], semester);
      if acs[0].semester != semester {
        forall x | x in rest ensures x.semester != acs[0].semester {
          assert x in acs[1..];
        }
      }
    }
  }

  /** Filtering distributes over concatenation. */
  lemma {:induction false} WithoutAppend(a: seq<SemesterRecord>, b: seq<SemesterRecord>, semester: int)
    ensures WithoutSemester(a + b, semester) == WithoutSemester(a, semester) + WithoutSemester(b, semester)
    decreases |a|
  {
    if |a| == 0 {
      assert a + b == b;
    } else {
      assert (a + b)[0] == a[0];
      assert (a + b)[1..] == a[1..] + b;
      WithoutAppend(a[1..], b, semester);
    }
  }

  /** Replace-by-semester: drop the record for that semester, then append
      the new one. */
  function ReplaceSemester(acs: seq<SemesterRecord>, rec: SemesterRecord): (r: seq<SemesterRecord>)
    ensures |r| >= 1 && r[|r| - 1] == rec
    ensures forall k :: 0 <= k < |r| - 1 ==> r[k].semester != rec.semester
    ensures forall x :: x in r && x.semester != rec.semester <==> x in acs && x.semester != rec.semester
    ensures UniqueSemesters(acs) ==> UniqueSemesters(r)
  {
    WithoutKeepsUnique(acs, rec.semester);
    WithoutSemester(acs, rec.semester) + [rec]
  }

  /** A second upload of the same semester wins: the result is as if only
      the second one had happened, so the semester is never duplicated. */
  lemma ReuploadReplaces(acs: seq<SemesterRecord>, first: SemesterRecord, second: SemesterRecord)
    requires first.semester == second.semester
    ensures ReplaceSemester(ReplaceSemester(acs, first), second) == ReplaceSemester(acs, second)
  {
    var sem := first.semester;
    var kept := WithoutSemester(acs, sem);
    WithoutAppend(kept, [first], sem);
    WithoutAbsentSemester(kept, sem);
    WithoutOwnSemester(first);
    assert WithoutSemester(ReplaceSemester(acs, first), sem) == kept;
  }

  /** Uploading a semester the student already has replaces that one record
      in place of nothing else: the other records keep their contents and
      their relative order, and the new record comes last. */
  lemma ReplaceExisting(acs: seq<SemesterRecord>, k: nat, rec: SemesterRecord)
    requires UniqueSemesters(acs) && k < |acs| && acs[k].semester == rec.semester
    ensures ReplaceSemester(acs, rec) == acs[..k] + acs[k + 1..] + [rec]
  {
    WithoutPresentSemester(acs, k);
  }

  /** Uploading a new semester appends its record and keeps the rest. */
  lemma ReplaceAbsent(acs: seq<SemesterRecord>, rec: SemesterRecord)
    requires forall k :: 0 <= k < |acs| ==> acs[k].semester != rec.semester
    ensures ReplaceSemester(acs, rec) == acs + [rec]
  {
    WithoutAbsentSemester(acs, rec.semester);
  }

  predicate AcademicsStorable(acs: seq<SemesterRecord>) {
    forall k :: 0 <= k < |acs| ==> RecordStorable(acs[k])
  }

  /** `POST /upload`. `found` is the student whose roll number the request
      names, looked up by the caller. Checks run in the handler's order; a
      record the schema rejects makes `save()` throw, which the handler
      answers with a 500 and nothing is stored. On success only `academics`
      changes, and it holds exactly one record for the uploaded semester:
      the new one, last, with one subject per input subject in input order. */
  function Upload(req: UploadRequest, found: Option<Student>): (r: Result<UploadReply, HttpError>)
    ensures !RequestComplete(req) ==> r == Failure(BadRequest)
    ensures RequestComplete(req) && found.None? ==> r == Failure(NotFound)
    ensures RequestComplete(req) && found.Some? && !AllWellFormed(req.subjects.value) ==> r == Failure(BadRequest)
    ensures r.Failure? && r.error == ServerError ==>
              RequestComplete(req) && found.Some? && AllWellFormed(req.subjects.value)
    ensures RequestComplete(req) && found.Some? && AllWellFormed(req.subjects.value) ==>
              (r.Success? <==> AcademicsStorable(ReplaceSemester(found.value.academics,
                                 BuildRecord(req.semester.value, ProcessAll(req.subjects.value)))))
    ensures r.Success? ==>
              && RequestComplete(req) && found.Some? && AllWellFormed(req.subjects.value)
              && var sis := req.subjects.value;
              && var old_ := found.value;
              && var s := r.value.student;
              && var acs := s.academics;
              && |acs| >= 1
              && var rec := acs[|acs| - 1];
              && s == old_.(academics := acs)
              && AcademicsStorable(acs)
              && rec.semester == req.semester.value == r.value.semester
              && (forall k :: 0 <= k < |acs| - 1 ==> acs[k].semester != rec.semester)
              && (forall x :: x in acs && x.semester != rec.semester <==> x in old_.academics && x.semester != rec.semester)
              && rec.subjects == ProcessAll(sis)
              && rec.sgpa == Sgpa(rec.subjects)
              && rec.totalCredits == TotalCredits(rec.subjects)
              && rec.earnedCredits == EarnedCredits(rec.subjects)
              && rec.backlogsThisSem == Backlogs(rec.subjects)
              && rec.sgpa == r.value.sgpa && rec.backlogsThisSem == r.value.backlogsThisSem
              && (UniqueSemesters(old_.academics) ==> UniqueSemesters(acs))
  {
    if !RequestComplete(req) then Failure(BadRequest)
    else if found.None? then Failure(NotFound)
    else if !AllWellFormed(req.subjects.value) then Failure(BadRequest)
    else
      var subs := ProcessAll(req.subjects.value);
      var rec := BuildRecord(req.semester.value, subs);
      var acs := ReplaceSemester(found.value.academics, rec);
      if !AcademicsStorable(acs) then Failure(ServerError)
      else Success(UploadReply(found.value.(academics := acs), rec.semester, rec.sgpa, rec.backlogsThisSem))
  }

  /** An upload of well-formed subjects with non-negative credits, known
      grades and marks in 0..100, for a student whose stored results are
      valid, always succeeds. */
  lemma CleanUploadSucceeds(req: UploadRequest, found: Option<Student>)
    requires RequestComplete(req) && found.Some? && AllWellFormed(req.subjects.value)
    requires AcademicsStorable(found.value.academics)
    requires forall k :: 0 <= k < |req.subjects.value| ==>
               var si := req.subjects.value[k];
               && si.credits.value >= 0
               && si.grade.Some? && Grades.Parse(si.grade.value).Some?
               && (si.marks.Some? ==> 0 <= si.marks.value <= 100)
    ensures Upload(req, found).Success?
  {
    var sis := req.subjects.value;
    var subs := ProcessAll(sis);
    SgpaInRange(subs);
    var rec := BuildRecord(req.semester.value, subs);
    forall k | 0 <= k < |subs| ensures SubjectStorable(subs[k]) {
      assert sis[k].grade.value != "" by {
        assert Grades.Parse(sis[k].grade.value).Some?;
      }
    }
    assert RecordStorable(rec);
    var acs := ReplaceSemester(found.value.academics, rec);
    forall k | 0 <= k < |acs| ensures RecordStorable(acs[k]) {
      if k < |acs| - 1 {
        assert acs[k] in found.value.academics;
      }
    }
  }

  /** Processing one more well-formed subject extends the processed list
      by its stored form. */
  lemma ProcessAllStep(sis: seq<SubjectInput>, i: nat)
    requires i < |sis| && AllWellFormed(sis[..i]) && WellFormed(sis[i])
    ensures AllWellFormed(sis[..i + 1])
    ensures ProcessAll(sis[..i + 1]) == ProcessAll(sis[..i]) + [Process(sis[i])]
  {
    assert sis[..i + 1] == sis[..i] + [sis[i]];
  }

  /** The result of the handler's accumulation loop. */
  datatype SemesterTotals = SemesterTotals(
    processed: seq<Subject>,
    totalCredits: int,
    totalPoints: int,
    earnedCredits: int,
    backlogs: int)

  /** The handler's `for` loop: checks each subject in turn, stopping at the
      first malformed one, and accumulates the four running sums. It fails
      exactly when some subject is malformed, and otherwise produces the
      processed subjects and the sums the record is built from. */
  method AccumulateSubjects(sis: seq<SubjectInput>) returns (r: Result<SemesterTotals, HttpError>)
    ensures r.Failure? <==> !AllWellFormed(sis)
    ensures r.Failure? ==> r.error == BadRequest
    ensures r.Success? ==>
              && |r.value.processed| == |sis|
              && r.value.processed == ProcessAll(sis)
              && r.value.totalCredits == TotalCredits(r.value.processed)
              && r.value.totalPoints == WeightedPoints(r.value.processed)
              && r.value.earnedCredits == EarnedCredits(r.value.processed)
              && r.value.backlogs == Backlogs(r.value.processed)
  {
    var processed: seq<Subject> := [];
    var semTotalCredits := 0;
    var totalPoints := 0;
    var backlogs := 0;
    var earnedCredits := 0;
    var i := 0;
    while i < |sis|
      invariant 0 <= i <= |sis|
      invariant AllWellFormed(sis[..i])
      invariant processed == ProcessAll(sis[..i])
      invariant semTotalCredits == TotalCredits(processed)
      invariant totalPoints == WeightedPoints(processed)
      invariant earnedCredits == EarnedCredits(processed)
      invariant backlogs == Backlogs(processed)
    {
      var si := sis[i];
      if !WellFormed(si) {
        return Failure(BadRequest);
      }
      var s := Process(si);
      var next := processed + [s];
      ProcessAllStep(sis, i);
      assert next[..|next| - 1] == processed && next[|next| - 1] == s;
      processed := next;
      semTotalCredits := semTotalCredits + s.credits;
      totalPoints := totalPoints + s.gradePoints * s.credits;
      if s.gradePoints > 0 {
        earnedCredits := earnedCredits + s.credits;
      }
      if Grades.IsBacklogName(s.grade) {
        backlogs := backlogs + 1;
      }
      i := i + 1;
    }
    assert sis[..i] == sis;
    r := Success(SemesterTotals(processed, semTotalCredits, totalPoints, earnedCredits, backlogs));
  }
}

=== FILE: numerals.dfy ===
/** Decimal numerals as the handlers read them from query strings and
    multipart form fields: `parseInt(s)` (longest leading integer) and
    `Number(s)` (the whole trimmed text must be a numeral). Only base-ten
    integer numerals are distinguished; every other text is NaN. */
module Numerals {
  import opened Wrappers
  import Text

  predicate IsDigit(c: char) {
    '0' <= c <= '9'
  }

  predicate AllDigits(s: string) {
    forall k :: 0 <= k < |s| ==> IsDigit(s[k])
  }

  function DigitValue(c: char): (d: nat)
    requires IsDigit(c)
    ensures d < 10
  {
    (c as int) - ('0' as int)
  }

  function DigitChar(d: nat): (c: char)
    requires d < 10
    ensures IsDigit(c) && DigitValue(c) == d
  {
    (('0' as int) + d) as char
  }

  /** The value of a digit string, most significant digit first. */
  function DigitsValue(s: string): nat
    requires AllDigits(s)
  {
    if |s| == 0 then 0 else 10 * DigitsValue(s[..|s| - 1]) + DigitValue(s[|s| - 1])
  }

  /** The longest run of digits at the start of `s`. */
  function LeadingDigits(s: string): (d: string)
    ensures |d| <= |s| && d == s[..|d|]
    ensures AllDigits(d)
    ensures |d| < |s| ==> !IsDigit(s[|d|])
  {
    if |s| > 0 && IsDigit(s[0]) then [s[0]] + LeadingDigits(s[1..]) else []
  }

  /** The canonical decimal spelling of a natural number (`String(n)`). */
  function Show(n: nat): (s: string)
    ensures |s| >= 1 && AllDigits(s)
  {
    if n < 10 then [DigitChar(n)] else Show(n / 10) + [DigitChar(n % 10)]
  }

  /** An optional leading sign: its factor and the text after it. */
  function SplitSign(s: string): (int, string) {
    if |s| > 0 && s[0] == '-' then (-1, s[1..])
    else if |s| > 0 && s[0] == '+' then (1, s[1..])
    else (1, s)
  }

  /** The integer at the start of `t` (sign, then leading digits), as
      `parseInt` reads it once whitespace is skipped. */
  function LeadingInteger(t: string): (r: Option<int>)
    ensures r.None? <==> LeadingDigits(SplitSign(t).1) == []
  {
    var d := LeadingDigits(SplitSign(t).1);
    if d == [] then None else Some(SplitSign(t).0 * DigitsValue(d))
  }

  /** The integer `t` spells in full (sign, then digits only), if any. */
  function WholeInteger(t: string): (r: Option<int>)
    ensures r.Some? ==> AllDigits(SplitSign(t).1) && SplitSign(t).1 != []
  {
    var rest := SplitSign(t).1;
    if rest != [] && AllDigits(rest) then Some(SplitSign(t).0 * DigitsValue(rest)) else None
  }

  /** `parseInt(s)` in base ten: leading whitespace is skipped, an optional
      sign is read, then the longest run of digits; `None` stands for NaN,
      which is what an absent parameter gives too. */
  function ParseInt(s: string): Option<int> {
    LeadingInteger(Text.TrimStart(s))
  }

  /** `Number(s)` for integer numerals: blank text is 0; otherwise the
      trimmed text must be an optional sign followed by digits only. */
  function ToNumber(s: string): (r: Option<int>)
    ensures Text.Trim(s) == [] ==> r == Some(0)
  {
    var t := Text.Trim(s);
    if t == [] then Some(0) else WholeInteger(t)
  }

  /** The value of the canonical spelling of `n` is `n`. */
  lemma {:induction false} ShowValue(n: nat)
    ensures DigitsValue(Show(n)) == n
    decreases n
  {
    if n >= 10 {
      ShowValue(n / 10);
      var s := Show(n);
      assert s[..|s| - 1] == Show(n / 10);
    }
  }

  /** A digit run followed by a non-digit (or nothing) is exactly the
      leading digits. */
  lemma {:induction false} LeadingDigitsOf(d: string, tail: string)
    requires AllDigits(d)
    requires tail == [] || !IsDigit(tail[0])
    ensures LeadingDigits(d + tail) == d
    decreases |d|
  {
    if |d| > 0 {
      assert (d + tail)[1..] == d[1..] + tail;
      LeadingDigitsOf(d[1..], tail);
      assert [d[0]] + d[1..] == d;
    } else {
      assert d + tail == tail;
    }
  }

  /** `parseInt` reads back the canonical spelling of `n`, whatever
      non-numeric text follows it (`parseInt("20abc")` is 20). */
  lemma ParseIntShow(n: nat, tail: string)
    requires tail == [] || !IsDigit(tail[0])
    ensures ParseInt(Show(n) + tail) == Some(n)
  {
    var s := Show(n) + tail;
    assert s[0] == Show(n)[0];
    assert !Text.IsSpace(s[0]);
    assert Text.TrimStart(s) == s;
    assert SplitSign(s) == (1, s);
    LeadingDigitsOf(Show(n), tail);
    ShowValue(n);
  }

  /** Text that does not start with whitespace is left alone by `TrimStart`. */
  lemma TrimStartKeeps(s: string)
    requires |s| == 0 || !Text.IsSpace(s[0])
    ensures Text.TrimStart(s) == s
  {
  }

  /** `parseInt("-" + String(n))` is `-n`. */
  lemma ParseIntNegative(n: nat)
    ensures ParseInt("-" + Show(n)) == Some(0 - n)
  {
    var s := ['-'] + Show(n);
    TrimStartKeeps(s);
    assert SplitSign(s) == (-1, Show(n));
    LeadingDigitsOf(Show(n), []);
    assert Show(n) + [] == Show(n);
    ShowValue(n);
  }

  /** `Number` reads back the canonical spelling of `n`. */
  lemma ToNumberShow(n: nat)
    ensures ToNumber(Show(n)) == Some(n)
  {
    var s := Show(n);
    assert !Text.IsSpace(s[0]) && !Text.IsSpace(s[|s| - 1]);
    assert Text.TrimStart(s) == s;
    assert Text.TrimEnd(s) == s;
    assert SplitSign(s) == (1, s);
    ShowValue(n);
  }

  /** A whole numeral followed by whitespace reads as the same integer
      when only its leading part is read. */
  lemma LeadingOfWhole(t: string, spaces: string)
    requires t != [] && WholeInteger(t).Some?
    requires spaces == [] || !IsDigit(spaces[0])
    ensures LeadingInteger(t + spaces) == WholeInteger(t)
  {
    var rest := SplitSign(t).1;
    assert (t + spaces)[0] == t[0];
    if t[0] == '-' || t[0] == '+' {
      assert (t + spaces)[1..] == t[1..] + spaces;
    }
    assert SplitSign(t + spaces) == (SplitSign(t).0, rest + spaces);
    LeadingDigitsOf(rest, spaces);
  }

  /** On text `Number` accepts as a non-blank integer numeral, `parseInt`
      gives the same value: the two conversions agree wherever both the
      pagination arithmetic and the reported page numbers read a value. */
  lemma ParseIntAgreesWithNumber(s: string)
    requires Text.Trim(s) != [] && ToNumber(s).Some?
    ensures ParseInt(s) == ToNumber(s)
  {
    var t := Text.Trim(s);
    var spaces := TrailingBlanks(s);
    assert ToNumber(s) == WholeInteger(t);
    LeadingOfWhole(t, spaces);
  }

  /** What trimming the end removes after the start is trimmed: blanks,
      so no digit. */
  function TrailingBlanks(s: string): (spaces: string)
    ensures Text.TrimStart(s) == Text.Trim(s) + spaces
    ensures spaces == [] || !IsDigit(spaces[0])
  {
    var t0 := Text.TrimStart(s);
    var t := Text.TrimEnd(t0);
    var spaces := t0[|t|..];
    assert t0 == t + spaces;
    assert spaces == [] || !IsDigit(spaces[0]) by {
      if spaces != [] { assert Text.IsSpace(spaces[0]); }
    }
    spaces
  }
}

=== FILE: paging.dfy ===
/** Page arithmetic of the list endpoints: how `page` and `limit` are read
    from the query, the number of documents skipped, the slice the store
    returns for `skip`/`limit`, and the `Math.ceil(total / limit)` page
    count reported beside it. */
module Paging {
  import opened Wrappers
  import opened Numerals

  /** `parseInt(raw) || d`: the parsed value, unless it is NaN (absent or
      not a numeral) or 0, which are both falsy. */
  function OrDefault(raw: Option<string>, d: int): (v: int)
    ensures v == d || (raw.Some? && ParseInt(raw.value) == Some(v))
    ensures raw.Some? && ParseInt(raw.value).Some? && ParseInt(raw.value).value != 0 ==> v == ParseInt(raw.value).value
    ensures raw.None? || ParseInt(raw.value).None? || ParseInt(raw.value) == Some(0) ==> v == d
  {
    if raw.None? then d
    else match ParseInt(raw.value)
      case Some(n) => if n != 0 then n else d
      case None => d
  }

  /** With a non-zero default the value read is never 0, so the page count
      below always divides by a non-zero limit; a positive numeral is taken
      as written. */
  lemma OrDefaultNonZero(raw: Option<string>, d: int, n: nat)
    ensures d != 0 ==> OrDefault(raw, d) != 0
    ensures n > 0 && raw == Some(Show(n)) ==> OrDefault(raw, d) == n
    ensures raw == Some(Show(0)) ==> OrDefault(raw, d) == d
  {
    ParseIntShow(n, []);
    ParseIntShow(0, []);
    assert Show(n) + [] == Show(n);
    assert Show(0) + [] == Show(0);
  }

  /** The number of documents before page `page`: `(page - 1) * limit`. */
  function Skip(page: int, limit: int): int {
    (page - 1) * limit
  }

  /** The least integer not below `a / b` (`Math.ceil(a / b)`). */
  function CeilDiv(a: int, b: int): (q: int)
    requires b != 0
    ensures b > 0 ==> b * (q - 1) < a <= b * q
    ensures b < 0 ==> b * q <= a < b * (q - 1)
  {
    if b > 0 then
      var m := (-a) / b;
      assert -a == b * m + (-a) % b;
      -m
    else
      var q := a / b;
      assert a == b * q + a % b;
      q
  }

  /** `Math.ceil(total / limit)`; a zero limit gives Infinity (or NaN for
      an empty collection), which is not a page count at all. */
  function PageCount(total: nat, limit: int): (pages: Option<int>)
    ensures pages.None? <==> limit == 0
    ensures limit > 0 ==> pages.value >= 0 && (pages.value == 0 <==> total == 0)
  {
    if limit == 0 then None else Some(CeilDiv(total, limit))
  }

  function Min(a: int, b: int): int {
    if a <= b then a else b
  }

  function Abs(a: int): nat {
    if a < 0 then -a else a
  }

  /** What the store returns for `.skip(skip).limit(limit)` over `items`:
      a negative skip is rejected by the store (500); a zero limit means no
      limit; a negative limit returns at most its magnitude in one batch. */
  function Window<T>(items: seq<T>, skip: int, limit: int): (r: Result<seq<T>, HttpError>)
    ensures r.Failure? <==> skip < 0
    ensures r.Failure? ==> r.error == ServerError
    ensures r.Success? ==> forall k :: 0 <= k < |r.value| ==> skip + k < |items| && r.value[k] == items[skip + k]
    ensures r.Success? && limit != 0 ==> |r.value| <= Abs(limit)
    ensures r.Success? ==> skip + |r.value| >= |items| || |r.value| == Abs(limit)
  {
    if skip < 0 then Failure(ServerError)
    else
      var from := Min(skip, |items|);
      var n := if limit == 0 then |items| - from else Min(Abs(limit), |items| - from);
      Success(items[from..from + n])
  }

  /** The pagination block of a list reply. */
  datatype Pagination = Pagination(page: int, limit: int, total: nat, pages: Option<int>)

  datatype ListReply<T> = ListReply(rows: seq<T>, pagination: Pagination)

  /** One page of `items` (the query's matches in sort order). */
  function Paginate<T>(items: seq<T>, page: int, limit: int): (r: Result<ListReply<T>, HttpError>)
    ensures r.Failure? <==> Skip(page, limit) < 0
    ensures r.Success? ==> r.value.pagination == Pagination(page, limit, |items|, PageCount(|items|, limit))
    ensures r.Success? ==> Window(items, Skip(page, limit), limit) == Success(r.value.rows)
  {
    var rows :- Window(items, Skip(page, limit), limit);
    Success(ListReply(rows, Pagination(page, limit, |items|, PageCount(|items|, limit))))
  }

  /** With a positive limit and a non-negative skip, the window is the
      slice between the skip and the skip plus the limit, both cut at the end. */
  lemma WindowSlice<T>(items: seq<T>, skip: int, limit: int)
    requires skip >= 0 && limit > 0
    ensures Window(items, skip, limit) == Success(items[Min(skip, |items|)..Min(skip + limit, |items|)])
  {
  }

  /** Multiplying by a positive number keeps the order. */
  lemma MulMonotone(a: int, b: int, c: int)
    requires a <= b && c > 0
    ensures a * c <= b * c
  {
    assert b * c - a * c == (b - a) * c;
  }

  /** The rows of pages 1 to `k`, one after another. */
  function FirstPages<T>(items: seq<T>, limit: int, k: nat): seq<T>
    requires limit > 0
  {
    if k == 0 then [] else FirstPages(items, limit, k - 1) + Window(items, Skip(k, limit), limit).value
  }

  /** Pages 1 to `k` together are the first `k * limit` items. */
  lemma {:induction false} FirstPagesPrefix<T>(items: seq<T>, limit: int, k: nat)
    requires limit > 0
    ensures FirstPages(items, limit, k) == items[..Min(k * limit, |items|)]
    decreases k
  {
    if k > 0 {
      FirstPagesPrefix(items, limit, k - 1);
      var skip := (k - 1) * limit;
      MulMonotone(0, k - 1, limit);
      assert Skip(k, limit) == skip;
      assert k * limit == skip + limit;
      WindowSlice(items, skip, limit);
      var lo := Min(skip, |items|);
      var hi := Min(skip + limit, |items|);
      assert items[..lo] + items[lo..hi] == items[..hi];
    }
  }

  /** Walking pages 1 to `pages` returns every item exactly once, in order. */
  lemma PagesCoverItems<T>(items: seq<T>, limit: int)
    requires limit > 0
    ensures FirstPages(items, limit, PageCount(|items|, limit).value) == items
  {
    var pages := PageCount(|items|, limit).value;
    FirstPagesPrefix(items, limit, pages);
    assert pages * limit >= |items|;
  }

  /** A page past the reported count is empty, and the last reported page
      is not. */
  lemma PageCountIsTight<T>(items: seq<T>, limit: int, page: int)
    requires limit > 0
    ensures page > PageCount(|items|, limit).value ==> Window(items, Skip(page, limit), limit) == Success([])
    ensures 1 <= page == PageCount(|items|, limit).value ==> Window(items, Skip(page, limit), limit).value != []
  {
    var pages := CeilDiv(|items|, limit);
    assert PageCount(|items|, limit) == Some(pages);
    if page > pages {
      PastLastPage(items, limit, pages, page);
    }
    if 1 <= page == pages {
      LastPage(items, limit, pages);
    }
  }

  /** A page after a count covering every item starts past the end. */
  lemma PastLastPage<T>(items: seq<T>, limit: int, pages: int, page: int)
    requires limit > 0 && |items| <= limit * pages && pages < page
    ensures Window(items, Skip(page, limit), limit) == Success([])
  {
    MulMonotone(pages, page - 1, limit);
    assert Skip(page, limit) >= |items|;
    WindowSlice(items, Skip(page, limit), limit);
  }

  /** The last page of a tight count starts before the end. */
  lemma LastPage<T>(items: seq<T>, limit: int, pages: int)
    requires limit > 0 && 1 <= pages && limit * (pages - 1) < |items|
    ensures Window(items, Skip(pages, limit), limit).value != []
  {
    assert Skip(pages, limit) == limit * (pages - 1);
    WindowSlice(items, Skip(pages, limit), limit);
  }

  /** The assignment list routes read `page` and `limit` with destructuring
      defaults (`{ page = 1, limit = 10 }`): the default applies only when
      the parameter is absent, so an explicit 0 is kept. */
  function ListPage<T>(items: seq<T>, page: Option<int>, limit: Option<int>, defaultLimit: int): (r: Result<ListReply<T>, HttpError>)
    ensures r.Success? ==> r.value.pagination.page == page.GetOr(1) && r.value.pagination.limit == limit.GetOr(defaultLimit)
    ensures r.Failure? <==> Skip(page.GetOr(1), limit.GetOr(defaultLimit)) < 0
    ensures r.Success? ==> r.value.pagination.total == |items|
    ensures r.Success? ==> Window(items, Skip(page.GetOr(1), limit.GetOr(defaultLimit)), limit.GetOr(defaultLimit)) == Success(r.value.rows)
  {
    Paginate(items, page.GetOr(1), limit.GetOr(defaultLimit))
  }

  /** An explicit page 0 is a negative skip on these routes and fails, while
      the student listing's `parseInt(page) || 1` reads the same "0" as
      page 1. */
  lemma ExplicitPageZero<T>(items: seq<T>, limit: int, d: int)
    requires limit > 0
    ensures ListPage(items, Some(0), Some(limit), d) == Failure(ServerError)
    ensures OrDefault(Some(Show(0)), 1) == 1
  {
    assert Skip(0, limit) < 0;
    assert Window(items, Skip(0, limit), limit) == Failure(ServerError);
    OrDefaultNonZero(Some(Show(0)), 1, 0);
  }

  /** A limit of 0 is no limit for the store: page 1 holds every item, and
      the page count is not a number. */
  lemma ZeroLimitListsAll<T>(items: seq<T>, d: int)
    ensures ListPage(items, Some(1), Some(0), d).Success?
    ensures ListPage(items, Some(1), Some(0), d).value.rows == items
    ensures ListPage(items, Some(1), Some(0), d).value.pagination.pages.None?
  {
    assert items[0..|items|] == items;
  }
}

=== FILE: ratios.dfy ===
/** Bounds on the exact quotients the model uses for SGPA and averages. */
module Ratios {
  /** A non-negative product with a positive factor has a non-negative
      other factor. */
  lemma PositiveFactor(n: real, d: real)
    requires n > 0.0 && n * d >= 0.0
    ensures d >= 0.0
  {
  }

  /** `n * lo <= s <= n * hi` with `n > 0` puts `s / n` between `lo` and `hi`. */
  lemma RatioBetween(s: int, n: int, lo: int, hi: int)
    requires n > 0 && n * lo <= s <= n * hi
    ensures lo as real <= s as real / n as real <= hi as real
  {
    var q := s as real / n as real;
    var nr := n as real;
    assert nr * q == s as real;
    assert (n * lo) as real == nr * lo as real;
    assert (n * hi) as real == nr * hi as real;
    PositiveFactor(nr, q - lo as real);
    PositiveFactor(nr, hi as real - q);
  }
}

=== FILE: student_model.dfy ===
/** The student document: its embedded semester results, warnings and
    mentor, the constraints its schema enforces when a document is saved,
    and the defaults a new document starts from. */
module StudentModel {
  import opened Wrappers
  import Grades
  import Text

  /** Document identifiers (ObjectIds), compared as strings. */
  type Id = string

  /** A wall-clock instant in milliseconds, supplied by the caller. */
  type Time = int

  /** One subject of a semester result, as the upload handler stores it. */
  datatype Subject = Subject(
    subjectName: string,
    subjectCode: string,
    credits: int,
    grade: Option<string>,
    gradePoints: int,
    marks: Option<int>)

  /** One semester's result in the student's `academics` list. */
  datatype SemesterRecord = SemesterRecord(
    semester: int,
    subjects: seq<Subject>,
    sgpa: real,
    totalCredits: int,
    earnedCredits: int,
    backlogsThisSem: int)

  datatype RiskLevel = Low | Medium | High | Critical

  datatype Warning = Warning(reason: string, givenBy: Id, date: Time)

  datatype Mentor = Mentor(name: Option<string>, phone: Option<string>)

  datatype Student = Student(
    id: Id,
    name: string,
    email: string,
    rollNo: string,
    department: string,
    program: string,
    batch: string,
    semester: int,
    section: string,
    totalClasses: int,
    attendedClasses: int,
    presentCount: int,
    lateCount: int,
    absentCount: int,
    attendancePercentage: real,
    academics: seq<SemesterRecord>,
    mentor: Mentor,
    cgpa: real,
    currentBacklogs: int,
    totalBacklogsEver: int,
    riskScore: int,
    riskLevel: RiskLevel,
    isAtRisk: bool,
    feePending: bool,
    warnings: seq<Warning>)

  /** What the schema accepts for a stored subject: non-empty name and
      code, a grade from the enum, and marks (when present) in 0..100. */
  predicate SubjectStorable(s: Subject) {
    && s.subjectName != ""
    && s.subjectCode != ""
    && s.grade.Some? && Grades.Parse(s.grade.value).Some?
    && (s.marks.Some? ==> 0 <= s.marks.value <= 100)
  }

  /** What the schema accepts for a stored semester result. */
  predicate RecordStorable(r: SemesterRecord) {
    && (forall k :: 0 <= k < |r.subjects| ==> SubjectStorable(r.subjects[k]))
    && 0.0 <= r.sgpa <= 10.0
  }

  /** What the schema accepts for a whole student document, as far as the
      modelled fields go. */
  predicate Storable(s: Student) {
    && (forall k :: 0 <= k < |s.academics| ==> RecordStorable(s.academics[k]))
    && (forall k :: 0 <= k < |s.warnings| ==> s.warnings[k].reason != "")
  }

  /** At most one semester result per semester number. */
  predicate UniqueSemesters(acs: seq<SemesterRecord>) {
    forall i, j :: 0 <= i < j < |acs| ==> acs[i].semester != acs[j].semester
  }

  /** The attended counter never exceeds the total counter. */
  predicate AttendedWithinTotal(s: Student) {
    0 <= s.attendedClasses <= s.totalClasses
  }

  /** The state every field with a schema default starts in. */
  predicate FreshDashboard(s: Student) {
    && s.totalClasses == 0 && s.attendedClasses == 0
    && s.presentCount == 0 && s.lateCount == 0 && s.absentCount == 0
    && s.attendancePercentage == 0.0
    && s.academics == []
    && s.mentor == Mentor(None, None)
    && s.cgpa == 0.0 && s.currentBacklogs == 0 && s.totalBacklogsEver == 0
    && s.riskScore == 0 && s.riskLevel == Low && !s.isAtRisk && !s.feePending
    && s.warnings == []
  }

  /** A newly registered student: the identity fields as given (name
      trimmed, email lower-cased by their setters) and every other field at
      its default. Such a document is storable, satisfies the attendance
      invariant and has no duplicate semesters. */
  function NewStudent(id: Id, name: string, email: string, rollNo: string, department: string,
                      program: string, batch: string, semester: int, section: string): (s: Student)
    ensures FreshDashboard(s)
    ensures Storable(s) && AttendedWithinTotal(s) && UniqueSemesters(s.academics)
    ensures s.id == id && s.rollNo == rollNo && s.department == department && s.program == program
    ensures s.batch == batch && s.semester == semester && s.section == section
    ensures s.name == Text.Trim(name) && s.email == Text.Lower(email)
  {
    Student(id, Text.Trim(name), Text.Lower(email), rollNo, department, program, batch, semester, section,
            0, 0, 0, 0, 0, 0.0, [], Mentor(None, None),
            0.0, 0, 0, 0, Low, false, false, [])
  }
}

=== FILE: student_routes.dfy ===
/** The student routes: the warning / at-risk override, the raw attendance
    counter patch, the role-gated paginated listing, and the class roster
    lookup. The document the route loads by id is passed in (`None` when
    no document has that id). */
module StudentRoutes {
  import opened Wrappers
  import opened StudentModel
  import TeacherModel
  import Numerals
  import Paging
  import Text

  /** `PATCH /:id/warning`: a truthy `reason` appends one warning given by
      the calling teacher at `now`; a supplied `isAtRisk` overrides the flag
      and sets the risk level to High or Low with it. */
  function Warn(found: Option<Student>, reason: Option<string>, isAtRisk: Option<bool>,
                teacher: Id, now: Time): (r: Result<Student, HttpError>)
    ensures found.None? <==> r == Failure(NotFound)
    ensures r.Success? ==> var s := found.value; var t := r.value;
      && |t.warnings| >= |s.warnings| && t.warnings[..|s.warnings|] == s.warnings
      && (Truthy(reason) ==> t.warnings == s.warnings + [Warning(reason.value, teacher, now)])
      && (!Truthy(reason) ==> t.warnings == s.warnings)
    ensures r.Success? && isAtRisk.Some? ==> r.value.isAtRisk == isAtRisk.value
    ensures r.Success? && isAtRisk.Some? ==> (r.value.riskLevel == High <==> r.value.isAtRisk)
    ensures r.Success? && isAtRisk.Some? ==> r.value.riskLevel in {High, Low}
    ensures r.Success? && isAtRisk.None? ==> r.value.isAtRisk == found.value.isAtRisk && r.value.riskLevel == found.value.riskLevel
  {
    if found.None? then Failure(NotFound)
    else
      var s := found.value;
      var s1 := if Truthy(reason) then s.(warnings := s.warnings + [Warning(reason.value, teacher, now)]) else s;
      var s2 := if isAtRisk.Some? then s1.(isAtRisk := isAtRisk.value, riskLevel := if isAtRisk.value then High else Low) else s1;
      Success(s2)
  }

  /** Apart from the warnings list, the flag and the risk level, a warning
      changes nothing, and a stored document stays storable and keeps its
      attendance invariant. */
  lemma WarnChangesOnlyRisk(found: Option<Student>, reason: Option<string>, isAtRisk: Option<bool>, teacher: Id, now: Time)
    requires found.Some?
    ensures var t := Warn(found, reason, isAtRisk, teacher, now).value;
      t.(warnings := found.value.warnings, isAtRisk := found.value.isAtRisk, riskLevel := found.value.riskLevel) == found.value
    ensures Storable(found.value) ==> Storable(Warn(found, reason, isAtRisk, teacher, now).value)
    ensures AttendedWithinTotal(found.value) ==> AttendedWithinTotal(Warn(found, reason, isAtRisk, teacher, now).value)
  {
  }

  /** Two warnings in a row leave both, in order, at the end of the list. */
  lemma WarningsAccumulate(s: Student, r1: string, r2: string, teacher: Id, t1: Time, t2: Time)
    requires r1 != "" && r2 != ""
    ensures var s1 := Warn(Some(s), Some(r1), None, teacher, t1).value;
      Warn(Some(s1), Some(r2), None, teacher, t2).value.warnings
        == s.warnings + [Warning(r1, teacher, t1), Warning(r2, teacher, t2)]
  {
  }

  /** `PATCH /:id/attendance`: `attendedClasses += attended` and
      `totalClasses += total`. A missing value makes the sum NaN, which
      the schema's number cast rejects on save (500). */
  function PatchAttendance(found: Option<Student>, attended: Option<int>, total: Option<int>): (r: Result<Student, HttpError>)
    ensures found.None? <==> r == Failure(NotFound)
    ensures found.Some? && (attended.None? || total.None?) <==> r == Failure(ServerError)
    ensures r.Success? ==> r.value.attendedClasses - found.value.attendedClasses == attended.value
    ensures r.Success? ==> r.value.totalClasses - found.value.totalClasses == total.value
    ensures r.Success? ==> r.value.(attendedClasses := found.value.attendedClasses,
                                    totalClasses := found.value.totalClasses) == found.value
  {
    if found.None? then Failure(NotFound)
    else if attended.None? || total.None? then Failure(ServerError)
    else
      var s := found.value;
      Success(s.(attendedClasses := s.attendedClasses + attended.value, totalClasses := s.totalClasses + total.value))
  }

  /** A patch with `0 <= attended <= total` keeps attended within total. */
  lemma PatchKeepsAttendedWithinTotal(s: Student, attended: int, total: int)
    requires AttendedWithinTotal(s) && 0 <= attended <= total
    ensures AttendedWithinTotal(PatchAttendance(Some(s), Some(attended), Some(total)).value)
  {
  }

  /** Without that bound the invariant can break: attending more classes
      than were held in the same patch. */
  lemma PatchCanBreakInvariant(s: Student)
    requires s.attendedClasses == s.totalClasses
    ensures !AttendedWithinTotal(PatchAttendance(Some(s), Some(2), Some(1)).value)
  {
  }

  /** Two patches add up to one patch with the summed amounts. */
  lemma PatchesCompose(s: Student, a1: int, t1: int, a2: int, t2: int)
    ensures var s1 := PatchAttendance(Some(s), Some(a1), Some(t1)).value;
      PatchAttendance(Some(s1), Some(a2), Some(t2)) == PatchAttendance(Some(s), Some(a1 + a2), Some(t1 + t2))
  {
  }

  /** The roles the listing is open to. */
  predicate MayList(role: TeacherModel.Role) {
    role == "Admin" || role == "Teacher" || role == "HOD"
  }

  /** `GET /all` without a search term: `roster` is every student in
      roll-number order; `page` defaults to 1 and `limit` to 20 when absent,
      not a numeral, or 0. */
  function ListAll(role: TeacherModel.Role, page: Option<string>, limit: Option<string>,
                   roster: seq<Student>): (r: Result<Paging.ListReply<Student>, HttpError>)
    ensures !MayList(role) <==> r == Failure(Forbidden)
    ensures r.Success? ==> var p := r.value.pagination;
      && p.total == |roster| && p.limit != 0 && p.pages.Some?
      && p.page == Paging.OrDefault(page, 1) && p.limit == Paging.OrDefault(limit, 20)
      && Paging.Window(roster, Paging.Skip(p.page, p.limit), p.limit) == Success(r.value.rows)
    ensures MayList(role) && r.Failure? ==> r.error == ServerError
    ensures r.Success? <==> MayList(role) && Paging.Skip(Paging.OrDefault(page, 1), Paging.OrDefault(limit, 20)) >= 0
  {
    if !MayList(role) then Failure(Forbidden)
    else
      Paging.OrDefaultNonZero(limit, 20, 0);
      Paging.Paginate(roster, Paging.OrDefault(page, 1), Paging.OrDefault(limit, 20))
  }

  /** With no paging parameters the listing is the first twenty students. */
  lemma ListAllDefaults(roster: seq<Student>)
    ensures ListAll("Teacher", None, None, roster).Success?
    ensures ListAll("Teacher", None, None, roster).value.rows == roster[..Paging.Min(20, |roster|)]
  {
  }

  /** A negative page number reaches the store as a negative skip, which
      the store rejects. */
  lemma ListAllNegativePage(roster: seq<Student>, n: nat)
    requires n > 0
    ensures ListAll("Admin", Some("-" + Numerals.Show(n)), None, roster) == Failure(ServerError)
  {
    Numerals.ParseIntNegative(n);
  }

  /** The roster filter: same semester, section and department. */
  predicate InClass(s: Student, semester: int, section: string, department: string) {
    s.semester == semester && s.section == section && s.department == department
  }

  /** The students of one class, in roster order. */
  function ClassMembers(students: seq<Student>, semester: int, section: string, department: string): (r: seq<Student>)
    ensures |r| <= |students|
    ensures forall s :: s in r <==> s in students && InClass(s, semester, section, department)
  {
    if |students| == 0 then []
    else
      var init := ClassMembers(students[..|students| - 1], semester, section, department);
      var last := students[|students| - 1];
      assert students == students[..|students| - 1] + [last];
      if InClass(last, semester, section, department) then init + [last] else init
  }

  /** Selecting a class member by member: the members of a concatenation
      are the members of each part, in that order, and a single student is
      kept exactly when in the class. Together these fix both the order and
      the multiplicity of the members. */
  lemma {:induction false} ClassMembersAppend(a: seq<Student>, b: seq<Student>, semester: int, section: string, department: string)
    ensures ClassMembers(a + b, semester, section, department)
            == ClassMembers(a, semester, section, department) + ClassMembers(b, semester, section, department)
    decreases |b|
  {
    if |b| == 0 {
      assert a + b == a;
    } else {
      var init := b[..|b| - 1];
      assert (a + b)[..|a + b| - 1] == a + init;
      assert (a + b)[|a + b| - 1] == b[|b| - 1];
      ClassMembersAppend(a, init, semester, section, department);
    }
  }

  lemma ClassMembersSingle(s: Student, semester: int, section: string, department: string)
    ensures ClassMembers([s], semester, section, department)
            == if InClass(s, semester, section, department) then [s] else []
  {
    assert [s][..0] == [];
  }

  /** `GET /class?semester&section&department`: all three must be truthy
      (400); the semester goes through `Number`, and a NaN makes the
      query's number cast fail (500). `students` is the collection in
      roll-number order, the order the query sorts by. */
  function ClassRoster(semester: Option<string>, section: Option<string>, department: Option<string>,
                       students: seq<Student>): (r: Result<seq<Student>, HttpError>)
    ensures !Truthy(semester) || !Truthy(section) || !Truthy(department) <==> r == Failure(BadRequest)
    ensures r == Failure(ServerError) <==> (Truthy(semester) && Truthy(section) && Truthy(department) && Numerals.ToNumber(semester.value).None?)
    ensures r.Success? <==> Truthy(semester) && Truthy(section) && Truthy(department) && Numerals.ToNumber(semester.value).Some?
    ensures r.Success? ==> r.value == ClassMembers(students, Numerals.ToNumber(semester.value).value, Text.Upper(section.value), department.value)
    ensures r.Success? ==> forall s :: s in r.value <==>
      s in students && InClass(s, Numerals.ToNumber(semester.value).value, Text.Upper(section.value), department.value)
  {
    if !Truthy(semester) || !Truthy(section) || !Truthy(department) then Failure(BadRequest)
    else match Numerals.ToNumber(semester.value)
      case None => Failure(ServerError)
      case Some(n) => Success(ClassMembers(students, n, Text.Upper(section.value), department.value))
  }

  /** The section parameter is matched without regard to letter case. */
  lemma RosterIgnoresSectionCase(semester: Option<string>, a: string, b: string, department: Option<string>,
                                 students: seq<Student>)
    requires a != "" && b != "" && Text.SameIgnoringCase(a, b)
    ensures ClassRoster(semester, Some(a), department, students) == ClassRoster(semester, Some(b), department, students)
  {
    Text.UpperEqualIff(a, b);
  }
}

=== FILE: teacher_model.dfy ===
/** The teacher document as far as the handlers read it, and the
    authorisation predicates built from its subject list: "teaches this
    student", "teaches this subject and class", and the Admin/HOD override. */
module TeacherModel {
  import opened Wrappers
  import opened StudentModel
  import Text

  /** The role carried by the authenticated user's token ("Teacher",
      "HOD", "Admin", "student", ...). */
  type Role = string

  /** One class a teacher takes: a subject for one semester, section and batch. */
  datatype TeacherSubject = TeacherSubject(
    subjectCode: string,
    subjectName: string,
    semester: int,
    section: string,
    batch: string)

  datatype Teacher = Teacher(id: Id, name: string, department: string, role: Role, subjects: seq<TeacherSubject>)

  /** What the teacher schema accepts for a subject entry: semester in
      1..8 and a section stored upper-cased. */
  predicate TeacherSubjectStorable(sub: TeacherSubject) {
    1 <= sub.semester <= 8 && sub.section == Text.Upper(sub.section)
  }

  /** The subject entry is for the student's class, within the teacher's
      department. */
  predicate Covers(t: Teacher, sub: TeacherSubject, s: Student) {
    sub.semester == s.semester && sub.section == s.section && s.department == t.department
  }

  /** `teacher.subjects.some(...)`: some subject the teacher takes is for
      the student's semester and section, and the departments match. */
  predicate TeachesStudent(t: Teacher, s: Student) {
    exists k :: 0 <= k < |t.subjects| && Covers(t, t.subjects[k], s)
  }

  /** Admins and HODs see every student. */
  predicate Privileged(role: Role) {
    role == "Admin" || role == "HOD"
  }

  /** Access to a student's details and to mentor assignment. */
  predicate MayAccess(t: Teacher, role: Role, s: Student) {
    TeachesStudent(t, s) || Privileged(role)
  }

  /** The scan `.some()` performs: it stops at the first covering subject,
      and reports none exactly when no subject covers the student. */
  method FirstCovering(t: Teacher, s: Student) returns (found: bool, index: nat)
    ensures found <==> TeachesStudent(t, s)
    ensures found ==> index < |t.subjects| && Covers(t, t.subjects[index], s)
    ensures found ==> forall j :: 0 <= j < index ==> !Covers(t, t.subjects[j], s)
  {
    index := 0;
    while index < |t.subjects|
      invariant index <= |t.subjects|
      invariant forall j :: 0 <= j < index ==> !Covers(t, t.subjects[j], s)
    {
      if Covers(t, t.subjects[index], s) {
        return true, index;
      }
      index := index + 1;
    }
    return false, index;
  }

  /** A teacher of another department reaches a student only through the
      Admin/HOD override. */
  lemma OtherDepartmentNeedsOverride(t: Teacher, role: Role, s: Student)
    requires t.department != s.department
    ensures MayAccess(t, role, s) <==> Privileged(role)
  {
  }

  /** Access depends on the student only through semester, section and
      department. */
  lemma AccessByClass(t: Teacher, role: Role, s1: Student, s2: Student)
    requires s1.semester == s2.semester && s1.section == s2.section && s1.department == s2.department
    ensures MayAccess(t, role, s1) <==> MayAccess(t, role, s2)
  {
    if TeachesStudent(t, s1) {
      var k :| 0 <= k < |t.subjects| && Covers(t, t.subjects[k], s1);
      assert Covers(t, t.subjects[k], s2);
    }
    if TeachesStudent(t, s2) {
      var k :| 0 <= k < |t.subjects| && Covers(t, t.subjects[k], s2);
      assert Covers(t, t.subjects[k], s1);
    }
  }

  /** Taking on one more class never withdraws access. */
  lemma MoreSubjectsKeepAccess(t: Teacher, role: Role, s: Student, sub: TeacherSubject)
    ensures MayAccess(t, role, s) ==> MayAccess(t.(subjects := t.subjects + [sub]), role, s)
  {
    var t2 := t.(subjects := t.subjects + [sub]);
    if TeachesStudent(t, s) {
      var k :| 0 <= k < |t.subjects| && Covers(t, t.subjects[k], s);
      assert t2.subjects[k] == t.subjects[k];
      assert Covers(t2, t2.subjects[k], s);
    }
  }

  /** The subject entry matches the code, semester, section and batch a
      new assignment is for. `semester` is `parseInt` of the form field,
      `None` for NaN, which equals no stored semester. */
  predicate MatchesClass(sub: TeacherSubject, code: string, semester: Option<int>, section: string, batch: string) {
    sub.subjectCode == code && semester == Some(sub.semester) && sub.section == section && sub.batch == batch
  }

  /** `teachesSubject`: some subject entry matches all four. */
  predicate TeachesSubject(t: Teacher, code: string, semester: Option<int>, section: string, batch: string) {
    exists k :: 0 <= k < |t.subjects| && MatchesClass(t.subjects[k], code, semester, section, batch)
  }

  /** A teacher who takes a subject for a class also teaches every student
      of that class in the teacher's own department. */
  lemma TeachesSubjectTeachesClass(t: Teacher, code: string, semester: int, section: string, batch: string, s: Student)
    requires TeachesSubject(t, code, Some(semester), section, batch)
    requires s.semester == semester && s.section == section && s.department == t.department
    ensures TeachesStudent(t, s)
  {
    var k :| 0 <= k < |t.subjects| && MatchesClass(t.subjects[k], code, Some(semester), section, batch);
    assert Covers(t, t.subjects[k], s);
  }
}

=== FILE: teacher_routes.dfy ===
/** The teacher routes: the dashboard figures of `/me`, the `/my-students`
    listing with each student's latest semester, the student detail view
    with its attendance summary, and mentor assignment. The documents the
    routes load are passed in; `classesToday` is the number of timetable
    entries for today. */
module TeacherRoutes {
  import opened Wrappers
  import opened StudentModel
  import opened TeacherModel
  import opened AttendanceModel
  import Marks
  import Text

  /** Number of elements of `xs` that satisfy `p`. */
  function CountWhere<T>(xs: seq<T>, p: T -> bool): (n: nat)
    ensures n <= |xs|
  {
    if |xs| == 0 then 0 else CountWhere(xs[..|xs| - 1], p) + (if p(xs[|xs| - 1]) then 1 else 0)
  }

  /** The elements of `xs` that satisfy `p`, in order. */
  function Filter<T(!new)>(xs: seq<T>, p: T -> bool): (r: seq<T>)
    ensures |r| == CountWhere(xs, p)
    ensures forall x :: x in r <==> x in xs && p(x)
  {
    if |xs| == 0 then []
    else
      var init := Filter(xs[..|xs| - 1], p);
      var last := xs[|xs| - 1];
      assert xs == xs[..|xs| - 1] + [last];
      if p(last) then init + [last] else init
  }

  /** A one-element list passes a filter its element satisfies unchanged. */
  lemma FilterSingleton<T(!new)>(x: T, p: T -> bool)
    requires p(x)
    ensures Filter([x], p) == [x]
  {
    assert [x][..0] == [];
  }

  // ---------------------------------------------------------------------
  // Dashboard (`GET /me`)

  /** The semesters the teacher takes classes in. */
  function Semesters(t: Teacher): set<int> {
    set k | 0 <= k < |t.subjects| :: t.subjects[k].semester
  }

  /** The sections the teacher takes classes in. */
  function Sections(t: Teacher): set<string> {
    set k | 0 <= k < |t.subjects| :: t.subjects[k].section
  }

  /** The `totalStudents` query: the teacher's department, any of the
      teacher's semesters and any of the teacher's sections, the two chosen
      independently of each other. */
  predicate InDashboardScope(t: Teacher, s: Student) {
    s.department == t.department && s.semester in Semesters(t) && s.section in Sections(t)
  }

  /** Every student the teacher teaches is counted in `totalStudents`. */
  lemma TaughtStudentsCounted(t: Teacher, s: Student)
    ensures TeachesStudent(t, s) ==> InDashboardScope(t, s)
  {
    if TeachesStudent(t, s) {
      var k :| 0 <= k < |t.subjects| && Covers(t, t.subjects[k], s);
      assert t.subjects[k].semester in Semesters(t);
      assert t.subjects[k].section in Sections(t);
    }
  }

  /** The distinct subject codes (null included) of the attendance records
      the teacher created on or after the start of today. */
  function MarkedToday(records: seq<Record>, teacher: Id, today: Time): set<Option<string>> {
    set k | 0 <= k < |records| && records[k].createdBy == teacher && records[k].date >= today :: records[k].subjectCode
  }

  /** `Math.max(0, classesToday - markedToday)`: the classes still to be
      marked, never negative, and zero exactly when at least as many codes
      were marked as there are classes. */
  function PendingMarking(classesToday: nat, marked: nat): (p: nat)
    ensures p <= classesToday
    ensures p == 0 <==> marked >= classesToday
    ensures p > 0 ==> p + marked == classesToday
  {
    if classesToday > marked then classesToday - marked else 0
  }

  /** A class of the breakdown: semester and section. The response keys it
      as "Semester <n> - Section <s>", which tells different pairs apart. */
  datatype ClassKey = ClassKey(semester: int, section: string)

  function KeyOf(sub: TeacherSubject): ClassKey {
    ClassKey(sub.semester, sub.section)
  }

  predicate HasKey(b: seq<(ClassKey, nat)>, key: ClassKey) {
    exists i :: 0 <= i < |b| && b[i].0 == key
  }

  predicate KeyTaught(subs: seq<TeacherSubject>, key: ClassKey) {
    exists k :: 0 <= k < |subs| && KeyOf(subs[k]) == key
  }

  /** Number of students of the department in one class. */
  function ClassSize(students: seq<Student>, department: string, key: ClassKey): nat {
    CountWhere(students, (s: Student) => s.department == department && s.semester == key.semester && s.section == key.section)
  }

  /** The per-class breakdown, built subject by subject: a class already
      present keeps its entry (a zero count is counted again, to the same
      value, in the same place), a new class is appended with its size. */
  function Breakdown(subs: seq<TeacherSubject>, students: seq<Student>, department: string): (b: seq<(ClassKey, nat)>)
    ensures forall i, j :: 0 <= i < j < |b| ==> b[i].0 != b[j].0
    ensures forall i :: 0 <= i < |b| ==> b[i].1 == ClassSize(students, department, b[i].0)
    ensures forall i :: 0 <= i < |b| ==> KeyTaught(subs, b[i].0)
    ensures forall k :: 0 <= k < |subs| ==> HasKey(b, KeyOf(subs[k]))
    ensures |subs| > 0 ==> |b| > 0 && b[0].0 == KeyOf(subs[0])
  {
    if |subs| == 0 then []
    else
      var init := subs[..|subs| - 1];
      var b := Breakdown(init, students, department);
      var key := KeyOf(subs[|subs| - 1]);
      BreakdownGrows(init, subs);
      if HasKey(b, key) then b
      else
        NewClassExtends(init, subs, students, department, b);
        b + [(key, ClassSize(students, department, key))]
  }

  /** Appending a class the breakdown lacks keeps the keys distinct and
      covers every subject of the longer list. */
  lemma NewClassExtends(init: seq<TeacherSubject>, subs: seq<TeacherSubject>, students: seq<Student>,
                        department: string, b: seq<(ClassKey, nat)>)
    requires |subs| > 0 && init == subs[..|subs| - 1]
    requires forall i, j :: 0 <= i < j < |b| ==> b[i].0 != b[j].0
    requires forall k :: 0 <= k < |init| ==> HasKey(b, KeyOf(init[k]))
    requires !HasKey(b, KeyOf(subs[|subs| - 1]))
    ensures var r := b + [(KeyOf(subs[|subs| - 1]), ClassSize(students, department, KeyOf(subs[|subs| - 1])))];
      && (forall i, j :: 0 <= i < j < |r| ==> r[i].0 != r[j].0)
      && (forall k :: 0 <= k < |subs| ==> HasKey(r, KeyOf(subs[k])))
  {
    var key := KeyOf(subs[|subs| - 1]);
    var r := b + [(key, ClassSize(students, department, key))];
    forall i, j | 0 <= i < j < |r| ensures r[i].0 != r[j].0 {
      if j == |b| {
        assert r[i] == b[i];
      }
    }
    forall k | 0 <= k < |subs| ensures HasKey(r, KeyOf(subs[k])) {
      if k == |subs| - 1 {
        assert r[|b|].0 == key;
      } else {
        assert subs[k] == init[k];
        var i :| 0 <= i < |b| && b[i].0 == KeyOf(init[k]);
        assert r[i] == b[i];
      }
    }
  }

  /** A class taught in a prefix of the subject list is taught in the list. */
  lemma BreakdownGrows(init: seq<TeacherSubject>, subs: seq<TeacherSubject>)
    requires |subs| > 0 && init == subs[..|subs| - 1]
    ensures forall key :: KeyTaught(init, key) ==> KeyTaught(subs, key)
    ensures KeyTaught(subs, KeyOf(subs[|subs| - 1]))
  {
    forall key | KeyTaught(init, key) ensures KeyTaught(subs, key) {
      var k :| 0 <= k < |init| && KeyOf(init[k]) == key;
      assert subs[k] == init[k];
    }
  }

  /** The low-attendance query: the teacher's department, any semester the
      teacher takes (any section), and attendance below 75 percent. */
  predicate InLowAttendanceScope(t: Teacher, s: Student) {
    s.department == t.department && s.semester in Semesters(t) && s.attendancePercentage < 75.0
  }

  datatype Dashboard = Dashboard(
    totalStudents: nat,
    classesToday: nat,
    markedToday: nat,
    pendingMarking: nat,
    lowAttendanceCount: nat,
    breakdown: seq<(ClassKey, nat)>)

  /** `GET /me` for the teacher loaded from the token: the counts shown on
      the dashboard, with "today" the midnight before `now`. */
  function TeacherDashboard(teacher: Option<Teacher>, classesToday: nat, records: seq<Record>, now: Time,
                            students: seq<Student>): (r: Result<Dashboard, HttpError>)
    ensures teacher.None? <==> r == Failure(NotFound)
    ensures teacher.Some? <==> r.Success?
    ensures r.Success? ==> var d := r.value; var t := teacher.value;
      && d.markedToday == |MarkedToday(records, t.id, Midnight(now))|
      && d.pendingMarking == PendingMarking(classesToday, d.markedToday)
      && d.pendingMarking <= d.classesToday == classesToday
      && (d.pendingMarking == 0 <==> d.markedToday >= classesToday)
      && d.totalStudents == CountWhere(students, (s: Student) => InDashboardScope(t, s))
      && d.lowAttendanceCount == CountWhere(students, (s: Student) => InLowAttendanceScope(t, s))
      && d.lowAttendanceCount <= |students|
      && d.breakdown == Breakdown(t.subjects, students, t.department)
  {
    if teacher.None? then Failure(NotFound)
    else
      var t := teacher.value;
      var marked := |MarkedToday(records, t.id, Midnight(now))|;
      Success(Dashboard(
        CountWhere(students, (s: Student) => InDashboardScope(t, s)),
        classesToday,
        marked,
        PendingMarking(classesToday, marked),
        CountWhere(students, (s: Student) => InLowAttendanceScope(t, s)),
        Breakdown(t.subjects, students, t.department)))
  }

  /** Marking one more subject today never raises the pending count. */
  lemma MarkingLowersPending(records: seq<Record>, r: Record, teacher: Id, today: Time, classesToday: nat)
    ensures MarkedToday(records, teacher, today) <= MarkedToday(records + [r], teacher, today)
    ensures PendingMarking(classesToday, |MarkedToday(records + [r], teacher, today)|)
            <= PendingMarking(classesToday, |MarkedToday(records, teacher, today)|)
  {
    var a := MarkedToday(records, teacher, today);
    var b := MarkedToday(records + [r], teacher, today);
    forall c | c in a ensures c in b {
      var k :| 0 <= k < |records| && records[k].createdBy == teacher && records[k].date >= today && records[k].subjectCode == c;
      assert (records + [r])[k] == records[k];
    }
    assert |a| <= |b| by { SubsetCardinality(a, b); }
  }

  lemma SubsetCardinality<T>(a: set<T>, b: set<T>)
    requires a <= b
    ensures |a| <= |b|
  {
    assert b == a + (b - a);
  }

  // ---------------------------------------------------------------------
  // My students (`GET /my-students`)

  /** The first record with the highest semester number: the head of the
      list after the stable sort by descending semester. */
  function LatestIndex(acs: seq<SemesterRecord>): (k: nat)
    requires |acs| > 0
    ensures k < |acs|
    ensures forall j :: 0 <= j < |acs| ==> acs[j].semester <= acs[k].semester
    ensures forall j :: 0 <= j < k ==> acs[j].semester < acs[k].semester
  {
    if |acs| == 1 then 0
    else
      var k := LatestIndex(acs[1..]) + 1;
      if acs[0].semester >= acs[k].semester then 0 else k
  }

  /** The latest semester record, `None` exactly when there is none. */
  function Latest(acs: seq<SemesterRecord>): (r: Option<SemesterRecord>)
    ensures r.None? <==> |acs| == 0
    ensures r.Some? ==> r.value in acs && forall j :: 0 <= j < |acs| ==> acs[j].semester <= r.value.semester
  {
    if |acs| == 0 then None else Some(acs[LatestIndex(acs)])
  }

  /** When semesters are unique, the latest record is the only one with the
      highest semester, whatever order `academics` is in. */
  lemma LatestIsUnique(acs: seq<SemesterRecord>, rec: SemesterRecord)
    requires UniqueSemesters(acs) && rec in acs
    requires forall j :: 0 <= j < |acs| ==> acs[j].semester <= rec.semester
    ensures Latest(acs) == Some(rec)
  {
    var k := LatestIndex(acs);
    var i :| 0 <= i < |acs| && acs[i] == rec;
    if i != k { assert false; }
  }

  datatype StudentRow = StudentRow(
    id: Id,
    name: string,
    rollNo: string,
    sgpa: Option<real>,
    totalSubjects: nat,
    failedSubjects: nat)

  /** One row of the listing: the latest semester's subject count, its
      F/Ab count, and its SGPA (`null` when there is none or it is 0). */
  function RowOf(s: Student): (row: StudentRow)
    ensures row.failedSubjects <= row.totalSubjects
    ensures |s.academics| == 0 ==> row.totalSubjects == 0 && row.sgpa.None?
    ensures |s.academics| > 0 ==> row.totalSubjects == |Latest(s.academics).value.subjects|
    ensures |s.academics| > 0 ==> row.failedSubjects == Marks.Backlogs(Latest(s.academics).value.subjects)
    ensures row.sgpa.Some? ==> row.sgpa.value != 0.0 && row.sgpa == Some(Latest(s.academics).value.sgpa)
    ensures |s.academics| > 0 && Latest(s.academics).value.sgpa != 0.0 ==> row.sgpa.Some?
    ensures row.id == s.id && row.name == s.name && row.rollNo == s.rollNo
  {
    var latest := Latest(s.academics);
    var subs := if latest.Some? then latest.value.subjects else [];
    var sgpa := if latest.Some? && latest.value.sgpa != 0.0 then Some(latest.value.sgpa) else None;
    StudentRow(s.id, s.name, s.rollNo, sgpa, |subs|, Marks.Backlogs(subs))
  }

  /** The listing query as written: any class the teacher takes, matched on
      semester, section and batch only. */
  predicate InTeachingClass(t: Teacher, s: Student) {
    exists k :: 0 <= k < |t.subjects| && t.subjects[k].semester == s.semester
                && t.subjects[k].section == s.section && t.subjects[k].batch == s.batch
  }

  /** The listing query as a filter. */
  function TeachingClassOf(t: Teacher): Student -> bool {
    (s: Student) => InTeachingClass(t, s)
  }

  /** The listing query with the department condition the detail and
      mentor routes apply. */
  predicate InOwnClass(t: Teacher, s: Student) {
    InTeachingClass(t, s) && s.department == t.department
  }

  /** The corrected listing query as a filter. */
  function OwnClassOf(t: Teacher): Student -> bool {
    (s: Student) => InOwnClass(t, s)
  }

  function Rows(students: seq<Student>): (rows: seq<StudentRow>)
    ensures |rows| == |students|
    ensures forall k :: 0 <= k < |rows| ==> rows[k] == RowOf(students[k])
  {
    seq(|students|, k requires 0 <= k < |students| => RowOf(students[k]))
  }

  /** The row built from a student loaded with the listing's projection,
      which does not load `academics`: no subjects, no failures, no SGPA. */
  function ProjectedRowOf(s: Student): (row: StudentRow)
    ensures row.totalSubjects == 0 && row.failedSubjects == 0 && row.sgpa.None?
    ensures row.id == s.id && row.name == s.name && row.rollNo == s.rollNo
  {
    RowOf(s.(academics := []))
  }

  function ProjectedRows(students: seq<Student>): (rows: seq<StudentRow>)
    ensures |rows| == |students|
    ensures forall k :: 0 <= k < |rows| ==> rows[k] == ProjectedRowOf(students[k])
  {
    seq(|students|, k requires 0 <= k < |students| => ProjectedRowOf(students[k]))
  }

  /** `GET /my-students` as written: any department, and rows built from
      the projected documents. `students` is the collection in roll-number
      order, the order the query sorts by. A teacher with no subjects sends an empty
      `$or`, which the store rejects (500). */
  function MyStudentsAsWritten(teacher: Option<Teacher>, students: seq<Student>): (r: Result<seq<StudentRow>, HttpError>)
    ensures teacher.None? <==> r == Failure(NotFound)
    ensures teacher.Some? && |teacher.value.subjects| == 0 <==> r == Failure(ServerError)
    ensures r.Success? <==> teacher.Some? && |teacher.value.subjects| > 0
    ensures r.Success? ==> r.value == ProjectedRows(Filter(students, TeachingClassOf(teacher.value)))
  {
    if teacher.None? then Failure(NotFound)
    else if |teacher.value.subjects| == 0 then Failure(ServerError)
    else Success(ProjectedRows(Filter(students, TeachingClassOf(teacher.value))))
  }

  /** The listing as written shows a student of another department who
      shares a teacher's semester, section and batch, although the detail
      route refuses that teacher access to the student. */
  lemma ListingShowsForeignStudent(t: Teacher, s: Student)
    requires |t.subjects| > 0
    requires t.subjects[0].semester == s.semester && t.subjects[0].section == s.section
    requires t.subjects[0].batch == s.batch && s.department != t.department
    ensures MyStudentsAsWritten(Some(t), [s]) == Success([ProjectedRowOf(s)])
    ensures !MayAccess(t, "Teacher", s)
  {
    ListedAlone(t, s);
  }

  /** A student of a taught class, listed on its own, gives one projected row. */
  lemma ListedAlone(t: Teacher, s: Student)
    requires |t.subjects| > 0 && InTeachingClass(t, s)
    ensures MyStudentsAsWritten(Some(t), [s]) == Success([ProjectedRowOf(s)])
  {
    assert TeachingClassOf(t)(s);
    FilterSingleton(s, TeachingClassOf(t));
    assert ProjectedRows([s]) == [ProjectedRowOf(s)];
  }

  /** `GET /my-students` restricted to the teacher's department, with rows
      built from the students' full documents; `students` is in roll-number
      order. */
  function MyStudents(teacher: Option<Teacher>, students: seq<Student>): (r: Result<seq<StudentRow>, HttpError>)
    ensures teacher.None? <==> r == Failure(NotFound)
    ensures teacher.Some? && |teacher.value.subjects| == 0 <==> r == Failure(ServerError)
    ensures r.Success? <==> teacher.Some? && |teacher.value.subjects| > 0
    ensures r.Success? ==> r.value == Rows(Filter(students, OwnClassOf(teacher.value)))
  {
    if teacher.None? then Failure(NotFound)
    else if |teacher.value.subjects| == 0 then Failure(ServerError)
    else Success(Rows(Filter(students, OwnClassOf(teacher.value))))
  }

  /** The listing as written reports no subjects for a student whose latest
      semester has some, because the projection leaves out the results. */
  lemma ListingHidesMarks(t: Teacher, s: Student)
    requires |t.subjects| > 0
    requires t.subjects[0].semester == s.semester && t.subjects[0].section == s.section
    requires t.subjects[0].batch == s.batch
    requires |s.academics| > 0 && |Latest(s.academics).value.subjects| > 0
    ensures MyStudentsAsWritten(Some(t), [s]) == Success([ProjectedRowOf(s)])
    ensures ProjectedRowOf(s).totalSubjects == 0 < |Latest(s.academics).value.subjects|
  {
    ListedAlone(t, s);
  }

  /** The corrected listing reports the latest semester's subject and F/Ab
      counts for a student of the teacher's own class. */
  lemma ListingReportsLatest(t: Teacher, s: Student)
    requires |t.subjects| > 0
    requires t.subjects[0].semester == s.semester && t.subjects[0].section == s.section
    requires t.subjects[0].batch == s.batch && s.department == t.department
    requires |s.academics| > 0
    ensures MyStudents(Some(t), [s]) == Success([RowOf(s)])
    ensures RowOf(s).totalSubjects == |Latest(s.academics).value.subjects|
    ensures RowOf(s).failedSubjects == Marks.Backlogs(Latest(s.academics).value.subjects)
  {
    assert OwnClassOf(t)(s);
    FilterSingleton(s, OwnClassOf(t));
    assert Rows([s]) == [RowOf(s)];
  }

  /** Every student the corrected listing shows is one the teacher may open
      in the detail route; every student in one of the teacher's classes
      (same batch included) is shown. */
  lemma ListingMatchesAccess(t: Teacher, role: Role, students: seq<Student>, s: Student)
    requires |t.subjects| > 0
    ensures s in Filter(students, OwnClassOf(t)) ==> MayAccess(t, role, s)
    ensures s in students && InOwnClass(t, s) ==> s in Filter(students, OwnClassOf(t))
  {
    if InOwnClass(t, s) {
      var k :| 0 <= k < |t.subjects| && t.subjects[k].semester == s.semester
               && t.subjects[k].section == s.section && t.subjects[k].batch == s.batch;
      assert Covers(t, t.subjects[k], s);
    }
  }

  // ---------------------------------------------------------------------
  // Student detail (`GET /students/:studentId`)

  datatype AttendanceSummary = AttendanceSummary(present: nat, absent: nat, late: nat, total: nat)

  function Tick(sum: AttendanceSummary, st: Status): AttendanceSummary {
    match st
    case Present => sum.(present := sum.present + 1, total := sum.total + 1)
    case Absent => sum.(absent := sum.absent + 1, total := sum.total + 1)
    case Late => sum.(late := sum.late + 1, total := sum.total + 1)
  }

  /** The `$group` over the student's records; with no records the
      aggregation is empty and the reply uses all-zero counts, which is
      where the fold starts. */
  function Summary(records: seq<Record>, student: Id): AttendanceSummary {
    if |records| == 0 then AttendanceSummary(0, 0, 0, 0)
    else
      var sum := Summary(records[..|records| - 1], student);
      var last := records[|records| - 1];
      if last.student == student then Tick(sum, last.status) else sum
  }

  /** The counts split the student's records by status: they add up to the
      total, which is the number of the student's records. */
  lemma {:induction false} SummaryBalances(records: seq<Record>, student: Id)
    ensures var sum := Summary(records, student);
      && sum.total == sum.present + sum.absent + sum.late
      && sum.total == CountWhere(records, (r: Record) => r.student == student)
      && sum.present == CountWhere(records, (r: Record) => r.student == student && r.status == Present)
      && sum.absent == CountWhere(records, (r: Record) => r.student == student && r.status == Absent)
      && sum.late == CountWhere(records, (r: Record) => r.student == student && r.status == Late)
    decreases |records|
  {
    if |records| > 0 {
      SummaryBalances(records[..|records| - 1], student);
    }
  }

  datatype Detail = Detail(student: Student, summary: AttendanceSummary)

  /** `GET /students/:studentId`: the caller's teacher document first (404),
      then the student (404), then the access check (403). */
  function StudentDetail(teacher: Option<Teacher>, role: Role, student: Option<Student>,
                         records: seq<Record>): (r: Result<Detail, HttpError>)
    ensures teacher.None? ==> r == Failure(NotFound)
    ensures teacher.Some? && student.None? ==> r == Failure(NotFound)
    ensures teacher.Some? && student.Some? ==>
      (r == Failure(Forbidden) <==> !MayAccess(teacher.value, role, student.value))
    ensures r.Success? ==> r.value.student == student.value
    ensures r.Success? <==> teacher.Some? && student.Some? && MayAccess(teacher.value, role, student.value)
    ensures r.Success? ==> r.value.summary == Summary(records, student.value.id)
    ensures r.Success? ==> r.value.summary.total == r.value.summary.present + r.value.summary.absent + r.value.summary.late
  {
    if teacher.None? then Failure(NotFound)
    else if student.None? then Failure(NotFound)
    else if !MayAccess(teacher.value, role, student.value) then Failure(Forbidden)
    else
      SummaryBalances(records, student.value.id);
      Success(Detail(student.value, Summary(records, student.value.id)))
  }

  /** A student without attendance records shows all-zero counts. */
  lemma NoRecordsZeroSummary(records: seq<Record>, student: Id)
    requires forall k :: 0 <= k < |records| ==> records[k].student != student
    ensures Summary(records, student) == AttendanceSummary(0, 0, 0, 0)
  {
    SummaryBalances(records, student);
    ZeroCount(records, student);
  }

  lemma {:induction false} ZeroCount(records: seq<Record>, student: Id)
    requires forall k :: 0 <= k < |records| ==> records[k].student != student
    ensures CountWhere(records, (r: Record) => r.student == student) == 0
    decreases |records|
  {
    if |records| > 0 {
      ZeroCount(records[..|records| - 1], student);
    }
  }

  // ---------------------------------------------------------------------
  // Mentor assignment (`PUT /assign-mentor/:studentId`)

  /** The mentor stored for a name and phone: both trimmed. */
  function MentorFrom(name: string, phone: string): (m: Mentor)
    ensures m.name == Some(Text.Trim(name)) && m.phone == Some(Text.Trim(phone))
    ensures |m.name.value| <= |name| && |m.phone.value| <= |phone|
  {
    Mentor(Some(Text.Trim(name)), Some(Text.Trim(phone)))
  }

  /** Blanks around the name or phone make no difference to the mentor. */
  lemma MentorIgnoresBlanks(name: string, phone: string)
    ensures MentorFrom(Text.Trim(name), Text.Trim(phone)) == MentorFrom(name, phone)
  {
    Text.TrimIdempotent(name);
    Text.TrimIdempotent(phone);
  }

  /** Name and phone must be truthy (400); the student must exist (404);
      a missing teacher document makes `teacher.subjects` throw (500);
      then the access check (403); the mentor becomes the trimmed name and
      phone. */
  function AssignMentor(name: Option<string>, phone: Option<string>, student: Option<Student>,
                        teacher: Option<Teacher>, role: Role): (r: Result<Student, HttpError>)
    ensures !Truthy(name) || !Truthy(phone) <==> r == Failure(BadRequest)
    ensures Truthy(name) && Truthy(phone) && student.None? <==> r == Failure(NotFound)
    ensures r == Failure(ServerError) <==> (Truthy(name) && Truthy(phone) && student.Some? && teacher.None?)
    ensures r == Failure(Forbidden) <==>
      (Truthy(name) && Truthy(phone) && student.Some? && teacher.Some? && !MayAccess(teacher.value, role, student.value))
    ensures r.Success? ==> r.value.mentor == MentorFrom(name.value, phone.value)
    ensures r.Success? ==> r.value.(mentor := student.value.mentor) == student.value
  {
    if !Truthy(name) || !Truthy(phone) then Failure(BadRequest)
    else if student.None? then Failure(NotFound)
    else if teacher.None? then Failure(ServerError)
    else if !MayAccess(teacher.value, role, student.value) then Failure(Forbidden)
    else Success(student.value.(mentor := MentorFrom(name.value, phone.value)))
  }

  /** Assigning the same mentor again changes nothing further. */
  lemma AssignMentorIdempotent(name: string, phone: string, s: Student, t: Teacher, role: Role)
    requires name != "" && phone != ""
    requires AssignMentor(Some(name), Some(phone), Some(s), Some(t), role).Success?
    ensures var s1 := AssignMentor(Some(name), Some(phone), Some(s), Some(t), role).value;
      AssignMentor(Some(name), Some(phone), Some(s1), Some(t), role) == Success(s1)
  {
    var s1 := AssignMentor(Some(name), Some(phone), Some(s), Some(t), role).value;
    AccessByClass(t, role, s, s1);
  }
}

=== FILE: text.dfy ===
/** The string normalisations the handlers and the schema setters apply:
    `trim()`, `toUpperCase()` and `split(',')`, restricted to the ASCII
    behaviour the model needs. */
module Text {

  /** The whitespace characters `String.prototype.trim` removes that the
      model distinguishes (ASCII blanks, no-break space, byte-order mark). */
  predicate IsSpace(c: char) {
    c == ' ' || c == '\t' || c == '\n' || c == '\r' || c == '\U{000B}' || c == '\U{000C}'
    || c == '\U{00A0}' || c == '\U{FEFF}'
  }

  predicate AllSpace(s: string) {
    forall i :: 0 <= i < |s| ==> IsSpace(s[i])
  }

  /** Drops leading whitespace: the result is the suffix of `s` that
      starts at its first non-blank character. */
  function TrimStart(s: string): (r: string)
    ensures |r| <= |s| && r == s[|s| - |r|..]
    ensures AllSpace(s[..|s| - |r|])
    ensures |r| > 0 ==> !IsSpace(r[0])
  {
    if |s| > 0 && IsSpace(s[0]) then TrimStart(s[1..]) else s
  }

  /** Drops trailing whitespace: the result is the prefix of `s` that ends
      at its last non-blank character. */
  function TrimEnd(s: string): (r: string)
    ensures |r| <= |s| && r == s[..|r|]
    ensures AllSpace(s[|r|..])
    ensures |r| > 0 ==> !IsSpace(r[|r| - 1])
  {
    if |s| > 0 && IsSpace(s[|s| - 1]) then TrimEnd(s[..|s| - 1]) else s
  }

  /** `s.trim()`: a contiguous piece of `s`, blank-free at both ends. */
  function Trim(s: string): (r: string)
    ensures |r| <= |s|
    ensures |r| > 0 ==> !IsSpace(r[0]) && !IsSpace(r[|r| - 1])
  {
    TrimEnd(TrimStart(s))
  }

  /** Trimming twice changes nothing more. */
  lemma TrimIdempotent(s: string)
    ensures Trim(Trim(s)) == Trim(s)
  {
    var t := Trim(s);
    assert TrimStart(t) == t;
    assert TrimEnd(t) == t;
  }

  function UpperChar(c: char): (u: char)
    ensures IsSpace(u) <==> IsSpace(c)
    ensures 'a' <= u <= 'z' ==> false
  {
    if 'a' <= c <= 'z' then (c as int - 32) as char else c
  }

  /** `s.toUpperCase()` on the ASCII letters. */
  function Upper(s: string): (r: string)
    ensures |r| == |s|
    ensures forall i :: 0 <= i < |s| ==> r[i] == UpperChar(s[i])
  {
    seq(|s|, i requires 0 <= i < |s| => UpperChar(s[i]))
  }

  function LowerChar(c: char): (l: char)
    ensures 'A' <= l <= 'Z' ==> false
  {
    if 'A' <= c <= 'Z' then (c as int + 32) as char else c
  }

  /** `s.toLowerCase()` on the ASCII letters. */
  function Lower(s: string): (r: string)
    ensures |r| == |s|
    ensures forall i :: 0 <= i < |s| ==> r[i] == LowerChar(s[i])
  {
    seq(|s|, i requires 0 <= i < |s| => LowerChar(s[i]))
  }

  /** Two strings equal up to the case of their ASCII letters. */
  predicate SameIgnoringCase(a: string, b: string) {
    |a| == |b| && forall i :: 0 <= i < |a| ==> UpperChar(a[i]) == UpperChar(b[i])
  }

  lemma UpperIdempotent(s: string)
    ensures Upper(Upper(s)) == Upper(s)
  {
  }

  /** Upper-casing equates exactly the strings that differ only in case. */
  lemma UpperEqualIff(a: string, b: string)
    ensures Upper(a) == Upper(b) <==> SameIgnoringCase(a, b)
  {
    if Upper(a) == Upper(b) {
      forall i | 0 <= i < |a|
        ensures UpperChar(a[i]) == UpperChar(b[i])
      {
        assert Upper(a)[i] == Upper(b)[i];
      }
    }
  }

  lemma {:induction false} TrimStartUpper(s: string)
    ensures TrimStart(Upper(s)) == Upper(TrimStart(s))
    decreases |s|
  {
    if |s| > 0 && IsSpace(s[0]) {
      assert Upper(s)[1..] == Upper(s[1..]);
      TrimStartUpper(s[1..]);
    }
  }

  lemma {:induction false} TrimEndUpper(s: string)
    ensures TrimEnd(Upper(s)) == Upper(TrimEnd(s))
    decreases |s|
  {
    if |s| > 0 && IsSpace(s[|s| - 1]) {
      assert Upper(s)[..|s| - 1] == Upper(s[..|s| - 1]);
      TrimEndUpper(s[..|s| - 1]);
    }
  }

  /** Trimming and upper-casing commute, so the order in which the schema
      setters `trim` and `uppercase` run does not matter. */
  lemma TrimUpperCommute(s: string)
    ensures Trim(Upper(s)) == Upper(Trim(s))
  {
    TrimStartUpper(s);
    TrimEndUpper(TrimStart(s));
  }

  /** `s.split(sep)` for a one-character separator. */
  function Split(s: string, sep: char): (pieces: seq<string>)
    ensures |pieces| >= 1
    ensures forall k :: 0 <= k < |pieces| ==> sep !in pieces[k]
  {
    if |s| == 0 then [""]
    else
      var rest := Split(s[1..], sep);
      if s[0] == sep then [""] + rest
      else [[s[0]] + rest[0]] + rest[1..]
  }

  /** `pieces.join(sep)`. */
  function Join(pieces: seq<string>, sep: char): string
    requires |pieces| >= 1
  {
    if |pieces| == 1 then pieces[0] else pieces[0] + [sep] + Join(pieces[1..], sep)
  }

  /** Splitting and re-joining gives the original string back. */
  lemma {:induction false} JoinSplit(s: string, sep: char)
    ensures Join(Split(s, sep), sep) == s
    decreases |s|
  {
    if |s| > 0 {
      var rest := Split(s[1..], sep);
      JoinSplit(s[1..], sep);
      if s[0] == sep {
        assert Split(s, sep) == [""] + rest;
      } else {
        var ps := Split(s, sep);
        assert ps[1..] == rest[1..];
        if |rest| == 1 {
          assert ps == [[s[0]] + rest[0]];
        } else {
          assert [s[0]] + rest[0] + [sep] + Join(rest[1..], sep) == [s[0]] + Join(rest, sep);
        }
      }
    }
  }

  /** Joining separator-free pieces and splitting again gives the pieces back. */
  lemma {:induction false} SplitJoin(pieces: seq<string>, sep: char)
    requires |pieces| >= 1
    requires forall k :: 0 <= k < |pieces| ==> sep !in pieces[k]
    ensures Split(Join(pieces, sep), sep) == pieces
    decreases |pieces|, |pieces[0]|
  {
    var p := pieces[0];
    if |p| == 0 {
      if |pieces| > 1 {
        var j := Join(pieces, sep);
        assert j == [sep] + Join(pieces[1..], sep);
        assert j[1..] == Join(pieces[1..], sep);
        SplitJoin(pieces[1..], sep);
        assert pieces == [""] + pieces[1..];
      }
    } else {
      var tail := [p[1..]] + pieces[1..];
      var j := Join(pieces, sep);
      assert Join(tail, sep) == j[1..] by {
        if |pieces| > 1 {
          assert j == p + [sep] + Join(pieces[1..], sep);
          assert tail[1..] == pieces[1..];
        }
      }
      assert p[0] != sep by { assert p[0] in p; }
      SplitJoin(tail, sep);
      assert [p[0]] + p[1..] == p;
      assert tail[1..] == pieces[1..];
      assert pieces == [[p[0]] + tail[0]] + tail[1..];
      assert j[0] == p[0] by {
        if |pieces| > 1 { assert j == p + ([sep] + Join(pieces[1..], sep)); }
      }
    }
  }

  /** Splits and trims each piece, as `s.split(',').map(x => x.trim())`. */
  function SplitTrimmed(s: string, sep: char): (items: seq<string>)
    ensures |items| == |Split(s, sep)|
    ensures forall k :: 0 <= k < |items| ==> items[k] == Trim(Split(s, sep)[k])
  {
    var pieces := Split(s, sep);
    seq(|pieces|, k requires 0 <= k < |pieces| => Trim(pieces[k]))
  }
}

=== FILE: wrappers.dfy ===
/** Failure-compatible wrappers shared by every handler model, and the
    outcome kinds the HTTP handlers answer with. */
module Wrappers {

  /** An optional value: `None` stands for a missing (or JavaScript-falsy) field. */
  datatype Option<+T> = None | Some(value: T) {

    /** Returns the carried value, or `default` when there is none. */
    function GetOr(default: T): T {
      match this
      case Some(v) => v
      case None => default
    }
  }

  /** A string field that is present and not empty: JavaScript-truthy. */
  predicate Truthy(s: Option<string>) {
    s.Some? && s.value != ""
  }

  /** Either a successful value or a failure kind. */
  datatype Result<+R, +E> = Success(value: R) | Failure(error: E) {

    predicate IsFailure() {
      Failure?
    }

    function PropagateFailure<U>(): Result<U, E>
      requires Failure?
    {
      Failure(error)
    }

    function Extract(): R
      requires Success?
    {
      value
    }
  }

  /** The error answers the handlers give: 400, 403, 404 and 500. A 500
      stands for an exception raised by the storage layer (a failed schema
      validation, a duplicate key, a rejected query) that the handler's
      `catch` turns into "Server error". */
  datatype HttpError = BadRequest | Forbidden | NotFound | ServerError {

    function Code(): nat {
      match this
      case BadRequest => 400
      case Forbidden => 403
      case NotFound => 404
      case ServerError => 500
    }
  }
}
